=== FILE: README.md ===
# zep editing engine in Dafny

This project models the editing core of zep (`zep.c`), a small terminal text
editor derived from Anthony's Editor. zep keeps one buffer of bytes in a
*gap buffer*. This is one byte array with a movable region of unused capacity
(the gap) at the edit point. The text the user sees is the bytes before the gap
followed by the bytes after it. On top of that buffer sit:

- layout scans that find logical line starts, wrapped screen segments and the
  offset at a given column. A row breaks once the running column reaches
  `COLS`, with tabs stopping every 8 columns, so a tab read at column `COLS - 1`
  carries its row up to `COLS + 7` columns;
- cursor motions built on those scans;
- the mark and a single clipboard (`scrap`) for copy, cut and paste;
- an incremental forward search driven by keystrokes.

Modules, one per component:

- `Bytes` (bytes.dfy): the byte type and the line feed, tab and carriage return values.
- `GapBuffer` (gap_buffer.dfy): storage as a byte sequence with indices `gap`
  and `egap`. Storage runs from 0 (`b_buf`) to its length (`b_ebuf`). `Text`
  is the logical text. `Ptr`/`Pos` translate between offsets and storage
  positions. `MoveGap` and `GrowGap` shift bytes one at a time in loops, as the
  source does, and are proved to keep `Text` unchanged.
- `Layout` (layout.dfy): `lnstart`, `segstart`, `segnext`, `upup`, `dndn` and
  `lncolumn` as pure functions. The wrap width `w > 0` is a parameter standing
  for the curses global `COLS`. Independent reference definitions sit beside
  them, and lemmas tie each scan to its reference:
  - `Col`, the running column of a stretch of text;
  - `LineStartOf`, the start of a logical line read off the text;
  - `SegEnd` and `SegOf`, the greedy layout of a logical line into segments;
  - `ScreenStart` and `ScreenLineOf`, the screen lines of the whole text.
- `Editing` (editing.dfy): the buffer record with the clipboard as a field. It
  holds insert, backspace, delete, set-mark, copy/cut, paste and kill-to-eol,
  plus the cursor motions. Every edit is proved against the logical text.
- `Search` (search.dfy): `search_forward` and the key handling of `search()` as a
  transition function over key codes. Curses calls are removed. A key sequence
  is a parameter.

Behaviour worth noting, as the code has it (the model follows the code):

- `segstart` does not restart at column 0 after a newline. It resets the
  column to 0 and then counts the newline itself, so the next byte is at column
  1 (zep.c:262-270). Callers normally scan inside one logical line, so this
  rarely matters; `SegScan` models it as written.
- A copy does not set `modified`; only a cut does (zep.c:516-523).
- `lncolumn` does not always give back the requested column. A tab can carry
  the running column past the target. The contract of `LnColumn` says exactly
  where the walk stops.
- `lnstart` decides it has reached the start of the text by comparing a storage
  position with the start of storage (zep.c:249-250). So a newline at offset 0
  is seen only when the gap sits at the start and is non-empty. `LnStart`
  models this faithfully. Its contract pins the answer down in both cases.
  `LineStartsExact` names the buffers where this does not arise: the text is
  empty, does not start with a newline, or the gap sits at the start and is
  non-empty. On those, `lnstart` finds the true line start. The screen-line
  properties of `upup`, `dndn` and the motions are proved for such buffers.
- `lnend` at the end of text steps back onto the last byte, since `dndn` stays
  at the end and `left` then moves back by one (zep.c:430-434).
- On a wrapped line, `killtoeol` cuts up to the last byte of the screen line
  and leaves that byte in place, since `lnend` stops on it (zep.c:550-552). With
  the point already on that byte, nothing is removed.
- A logical line exactly `w` columns wide does not end its screen row with its
  newline. `segnext` stops on the width test before it reads the newline
  (zep.c:284-286), so the newline forms a screen segment of its own, which
  shows as a blank row. `Layout.WidthFilledLineScenario` exhibits this on
  `"ab\tcd\nefgh"` at width 10.
- `up` and `down` can miss the screen line they aim for. They walk from its
  start with `lncolumn` (zep.c:307-316), which stops only once the running
  column reaches `col`. A tab that carries the column past `col` and past the
  width ends the walk on the next screen line's start. The painter sets `col`
  near the width after a tab (zep.c:398-401), so this arises in use.
  `Editing.UpTabOvershootScenario` and `Editing.DownTabOvershootScenario`
  exhibit it.

## Model

| member | source | states |
|---|---|---|
| `GapBuffer.Len` | zep.c:558 | the logical length, `pos(b_ebuf)`, is the length of the text before plus after the gap |
| `GapBuffer.Ptr` | zep.c:100-105 | negative offsets clamp to storage position 0; an offset below the length maps outside the gap to the position holding that text byte; the length maps to the end of storage |
| `GapBuffer.Pos` | zep.c:107-112 | a storage position outside the gap maps to an offset in [0, len] that `ptr` sends back to it; the gap's start and end both map to the gap's offset |
| `GapBuffer.PosPtr` | zep.c:101-112 | `pos(ptr(o)) == o` for every `0 <= o <= len` |
| `GapBuffer.MoveLeftStep` | zep.c:159-160 | one step of the backward loop of `movegap` moves the byte before the gap to the slot before the gap's end and keeps the text |
| `GapBuffer.MoveRightStep` | zep.c:161-162 | one step of the forward loop of `movegap` moves the byte at the gap's end to the gap's start and keeps the text |
| `GapBuffer.MoveGap` | zep.c:156-167 | the text and gap size are unchanged, `buf <= gap <= egap <= ebuf` is kept, the gap starts at the offset (clamped at 0), and that offset is returned |
| `GapBuffer.GrowGap` | zep.c:114-154 | the text and gap start are unchanged, and the gap and storage grow by exactly `max(n, 512)` bytes |
| `Layout.Advance` | zep.c:270 | showing a byte moves the column forward; a tab moves it to the next multiple of 8, at most 8 columns on; any other byte moves it by 1 |
| `Layout.LnStart` | zep.c:243-251 | the result is at most `off`, is 0 or one past a newline, and no newline lies in [result, off) except possibly at offset 0; a newline at offset 0 is honoured exactly when storage position 0 does not hold offset 0 |
| `Layout.PtrZero` | zep.c:103-104 | offset 0 sits at a storage position other than 0 exactly when the gap is at the start and non-empty |
| `Layout.LineStartOf` | zep.c:243-251 | reference line start: the result is at most `off`, is 0 or one past a newline, and no newline lies between it and `off` |
| `Layout.LnStartMatches` | zep.c:243-251 | where line starts are exact, `lnstart` returns the reference line start |
| `Layout.LineStartSame` | zep.c:243-251 | offsets with no newline between them share their line start |
| `Layout.SegEnd` | zep.c:282-289 | reference segment end: the first offset after `s` where the segment has taken in a newline, its column has reached the width, or the text ends; the bytes before its last one fit in fewer than `w` columns |
| `Layout.SegOf` | zep.c:253-290 | reference greedy layout: the start of the segment holding `f`, laying segments from `line` one after another, each ending at its `SegEnd`; that segment runs past `f` short of the end of text |
| `Layout.SegOfIdem` | zep.c:253-290 | a segment start found by the greedy layout is found again from itself |
| `Layout.SegOfThrough` | zep.c:253-290 | once the greedy layout reaches a segment start, it goes on as a layout from that start |
| `Layout.SegOfBefore` | zep.c:253-290 | the segment holding the offset just before a segment start ends exactly at that start |
| `Layout.SegScan` | zep.c:260-272 | the segment start found lies in [start, finish], and the bytes from it to `finish` hold no newline and fit in fewer than `w` columns; `SegScanAgrees` pins it down |
| `Layout.SegScanAgrees` | zep.c:260-272 | within one logical line, the `segstart` loop returns exactly the start the greedy layout gives |
| `Layout.SegScanWraps` | zep.c:265-270 | a loop step that reaches the width starts a new segment at the scanned byte, in the loop and in the greedy layout alike |
| `Layout.SegScanContinues` | zep.c:269-270 | a loop step short of the width continues the current segment |
| `Layout.SegScanAgreesAtNewline` | zep.c:262-270 | the loop meeting the newline that ends the logical line agrees with the greedy layout |
| `Layout.SegScanAgreesAtEnd` | zep.c:272 | the loop's final answer agrees with the greedy layout |
| `Layout.SegStart` | zep.c:253-273 | for `start <= finish` the result lies in [start, finish], otherwise it is `start`; the bytes from the result to `finish` hold no newline and fit in fewer than `w` columns |
| `Layout.SegStartAgrees` | zep.c:253-273 | within one logical line, `segstart` returns the start of the greedy-layout segment that holds `finish` |
| `Layout.SegNextScan` | zep.c:282-289 | the scan stops at the first offset where the segment has taken in a newline, its column has reached the width, or the text ends, and at no earlier one |
| `Layout.SegNext` | zep.c:275-290 | the result is past the segment start unless that start is the end of text, past `finish` short of the end of text, and equal to the length at the end of text; the segment ends at the end of text, just after a newline, or at the first offset where the column reaches `w`, and its bytes before the last fit in fewer than `w` columns |
| `Layout.SegNextPasses` | zep.c:282-289 | a segment whose bytes up to `f` hold no newline and fit in the width does not end before `f` |
| `Layout.SegNextTiles` | zep.c:253-290 | segments tile a logical line: the segment after the one holding `f` starts where `segstart` finds it, so `segstart(start, segnext(start, f)) == segnext(start, f)` short of the end of text |
| `Layout.UpUp` | zep.c:292-302 | moving up a screen line never moves forward, moves strictly back from any offset other than 0, and lands no further back than the logical line before the current one |
| `Layout.DnDn` | zep.c:304-305 | moving down a screen line stays within the text, moves strictly forward short of the end of text, stays at the end of text, and crosses no newline before the new line's start |
| `Layout.ScreenLineOf` | zep.c:253-290 | reference screen line: the start of the greedy-layout segment holding `off` lies on `off`'s logical line, at or before `off`, and that segment runs past `off` short of the end of text |
| `Layout.ScreenLineOfStarts` | zep.c:253-290 | the screen line of any offset starts at a screen start of the same logical line |
| `Layout.ScreenLineOfWithin` | zep.c:253-290 | every offset inside the screen line starting at `s` has `s` as its screen line |
| `Layout.LastOfScreenLine` | zep.c:253-290 | the last offset of a screen line still belongs to it |
| `Layout.NextScreenLine` | zep.c:253-290 | a screen line ends at the next screen start, or at the end of text |
| `Layout.PrevScreenLine` | zep.c:253-290 | the screen line holding the offset just before a screen start ends exactly at that start |
| `Layout.LineBegin` | zep.c:425 | the start of the screen line `lnbegin` computes lies on the point's logical line, at or before the point, with no newline in between |
| `Layout.LineBeginIsScreenLine` | zep.c:425 | where line starts are exact, `lnbegin`'s target is the reference screen line of the offset |
| `Layout.LineBeginStarts` | zep.c:425 | where line starts are exact, `lnbegin`'s target is a screen start |
| `Layout.LineBeginHolds` | zep.c:425 | where line starts are exact, short of the end of text, the offset lies in the screen line from `lnbegin`'s target up to `dndn` of it |
| `Layout.LineBeginWithin` | zep.c:425 | where line starts are exact, conversely, an offset inside the screen line starting at `s` has `s` as its `lnbegin` target |
| `Layout.ScreenStartBegins` | zep.c:425 | where line starts are exact, at a screen start `lnbegin` stays put |
| `Layout.LineBeginSameLine` | zep.c:425 | where line starts are exact, `lnbegin`'s target lies on the same logical line |
| `Layout.DnDnEndsScreenLine` | zep.c:304-305 | where line starts are exact, `dndn` goes to the reference end of the screen line holding the offset |
| `Layout.DnDnAtScreenStart` | zep.c:304-305 | where line starts are exact, from a screen start `dndn` goes to the end of the segment starting there |
| `Layout.DnDnScreenStart` | zep.c:304-305 | where line starts are exact, short of the end of text, `dndn` lands on a screen start |
| `Layout.LineBeginDown` | zep.c:304-305 | where line starts are exact, `dndn` from an offset and from its screen line's start agree |
| `Layout.LastOfLine` | zep.c:304-305 | where line starts are exact, the offset just before `dndn`'s result lies on the same screen line as the starting offset |
| `Layout.DnDnFromPrevious` | zep.c:304-305 | where line starts are exact, `dndn` from the screen line before a screen start `s` goes to `s` |
| `Layout.UpUpWithinLine` | zep.c:292-302 | where line starts are exact, in the first case `upup` goes to the reference screen line of the byte before |
| `Layout.UpUpAcrossLine` | zep.c:292-302 | where line starts are exact, in the second case `upup` goes to the reference screen line of the byte before |
| `Layout.SegStartInLine` | zep.c:253-273 | `segstart` over the logical line of an offset, stopped at the byte before its screen line, gives that byte's screen line |
| `Layout.UpUpFirstLine` | zep.c:292-302 | where line starts are exact, on the first screen line `upup` goes to 0 |
| `Layout.UpUpStartsPrevious` | zep.c:292-302 | where line starts are exact, elsewhere `upup` goes to the start of the screen line holding the byte before the offset's screen line |
| `Layout.UpUpFromLater` | zep.c:292-302 | where line starts are exact, `upup` from an offset and from its screen line's start agree |
| `Layout.UpUpFromFirst` | zep.c:292-302 | where line starts are exact, on the first screen line, `upup` from any offset agrees with `upup` from 0 |
| `Layout.LineBeginUp` | zep.c:292-302 | where line starts are exact, `upup` from an offset and from its `lnbegin` target agree |
| `Layout.UpUpScreenStartAfter` | zep.c:292-302 | where line starts are exact, away from the first screen line, `upup` lands on a screen start |
| `Layout.UpUpScreenStartFirst` | zep.c:292-302 | where line starts are exact, on the first screen line, `upup` lands on a screen start |
| `Layout.UpUpScreenStart` | zep.c:292-302 | where line starts are exact, `upup` always lands on a screen start |
| `Layout.DnDnUpUp` | zep.c:292-305 | where line starts are exact, for every screen start `0 < s <= len`, `dndn(upup(s)) == s` |
| `Layout.UpUpFromNext` | zep.c:292-305 | where line starts are exact, from the screen start after the one at `s`, `upup` goes back to `s` |
| `Layout.UpUpDnDn` | zep.c:292-305 | where line starts are exact, for every screen start `s` with `dndn(s) < len`, `upup(dndn(s)) == s` |
| `Layout.WidthFilledLineScenario` | zep.c:253-290 | in `"ab\tcd\nefgh"` at width 10 the first segment ends before the newline, the newline alone forms the next segment, and `"efgh"` the one after |
| `Layout.InexactLineStartScenario` | zep.c:243-305 | on `"\nabcdefg"` with the gap at the end and width 3, line starts are not exact; 7 starts a screen line, yet `upup` from 7 gives 3 and `dndn` from 3 gives 6, so the two are not inverse there |
| `Layout.ColumnScan` | zep.c:310-316 | the walk stops at the least offset where the text ends, a newline sits, or the reference column reaches the target |
| `Layout.LnColumn` | zep.c:307-317 | the result lies in [offset, len] with no newline before it, equals `offset` for a column of 0 or less, and is the least offset where the text ends, a newline sits, or the column reaches the target |
| `Layout.LnColumnWithinSegment` | zep.c:307-317 | for a column within the width, `lncolumn` from a segment start stops no later than that segment's end |
| `Editing.StoredByte` | zep.c:462 | a typed carriage return is stored as a line feed, every other byte is stored as typed, and no carriage return is ever stored |
| `Editing.Insert` | zep.c:457-465 | one byte is spliced in at the point, `'\r'` stored as `'\n'`; the point advances by 1, `modified` is set, nothing else changes |
| `Editing.Backspace` | zep.c:467-475 | at the start nothing changes; otherwise the byte before the point is removed, the point steps back, and `modified` is set |
| `Editing.BackAtGap` | zep.c:470-471 | with the gap just after the point's byte, narrowing the gap removes exactly that byte from the text |
| `Editing.Delete` | zep.c:477-484 | at the end nothing changes; otherwise the byte at the point is removed, the point stays, and `modified` is set |
| `Editing.InsertThenBackspace` | zep.c:457-475 | an insert followed at once by a backspace restores the text and the point |
| `Editing.SetMark` | zep.c:486-490 | the mark is cleared exactly when it equalled the point, and otherwise set to the point |
| `Editing.CopyCut` | zep.c:492-526 | without a mark, or with the mark at the point, nothing changes; otherwise the clipboard becomes `text[min(point,mark), max(point,mark))` and the mark is cleared; a cut removes that range and puts the point at its lower end, and a copy leaves text and point alone |
| `Editing.CutAtGap` | zep.c:515-518 | with the gap at the region start, the bytes after the gap are the region, and widening the gap over them removes exactly the region from the text |
| `Editing.Paste` | zep.c:528-539 | with an empty clipboard nothing changes; otherwise the clipboard bytes are inserted at the point, the point advances by their count, and `modified` is set |
| `Editing.CutThenPaste` | zep.c:492-539 | a cut followed at once by a paste restores the text, leaves the point at the upper end of the region, and keeps the region in the clipboard |
| `Editing.Top` | zep.c:419 | the point goes to 0; nothing else changes |
| `Editing.Bottom` | zep.c:420 | the point and page end go to the end of text; nothing else changes |
| `Editing.Left` | zep.c:421 | the point steps back by one, stopping at 0 |
| `Editing.Right` | zep.c:422 | the point steps forward by one, stopping at the end of text |
| `Editing.LeftRightInverse` | zep.c:421-422 | away from the ends, left and right undo each other |
| `Editing.Up` | zep.c:423 | the point lands at or after the start of the screen line above, crossing no newline; it stops at the first byte whose column from that start reaches the remembered column `col`, at a newline or at the end of text, and every byte it passed lies left of `col`; with column 0 it moves strictly back from any point other than 0; by `UpLands` it stops at or before the end of that screen line, and `UpTabOvershootScenario` shows it reaching the next screen line's start when a tab carries the column past `col` |
| `Editing.UpLands` | zep.c:423 | where line starts are exact, the `upup` that `up` walks from goes to a screen start: 0 from the first screen line, otherwise the screen line that ends where the point's begins; with a column within the width the point stops no later than that line's end, which may be the next screen line's start |
| `Editing.Down` | zep.c:424 | the point lands at or after the start of the next screen line and stops, as `Up` does, at the first byte reaching column `col`, a newline or the end of text; so it moves strictly forward short of the end of text, and stays at the end of text; by `DownLands` it stops at or before the end of that screen line, and `DownTabOvershootScenario` shows it reaching the start of the screen line after it when a tab carries the column past `col` |
| `Editing.DownLands` | zep.c:424 | where line starts are exact and short of the last screen line, the `dndn` that `down` walks from goes to a screen start whose screen line above is the point's; with a column within the width the point stops no later than that line's end, which may be the next screen line's start |
| `Editing.UpAfterDown` | zep.c:423-424 | from a screen start with column 0, `up` undoes `down` short of the last screen line |
| `Editing.DownAfterUp` | zep.c:423-424 | from a screen start with column 0, `down` undoes `up` away from the start of text |
| `Editing.UpTabOvershootScenario` | zep.c:307-316 | on `"ab\tXY"` at width 4 with `col` 3, `up` from offset 4 walks from 0, the tab carries the column from 2 to 8, and the point stops on 3, which is the start of its own screen line and not the line above |
| `Editing.DownTabOvershootScenario` | zep.c:307-316 | on `"abcdab\tXY"` at width 4 with `col` 3, `down` from 0 walks from 4, the tab carries the column from 2 to 8, and the point stops on 7, which is `dndn(dndn(0))`, one screen line too far |
| `Editing.LnBegin` | zep.c:425 | the point moves back within its logical line, crossing no newline; `LnBeginLands` places it on the start of the point's screen line |
| `Editing.LnBeginLands` | zep.c:425 | `lnbegin` lands on a screen start, and short of the end of text the point lies inside the screen line starting there |
| `Editing.LnBeginFromInside` | zep.c:425 | from any point inside the screen line starting at `s`, `lnbegin` goes to `s` |
| `Editing.LnBeginIdempotent` | zep.c:425 | `lnbegin` twice is `lnbegin` once |
| `Editing.LnEnd` | zep.c:430-434 | short of the end of text the point does not move back and crosses no newline; at the end of text it steps back onto the last byte |
| `Editing.LnEndLands` | zep.c:430-434 | short of the end of text, `lnend` lands on the last byte of the point's screen line, which lies on that screen line and is followed by the next screen start or the end of text |
| `Editing.LnEndAfterLnBegin` | zep.c:425-434 | `lnend` after `lnbegin` goes where `lnend` alone goes |
| `Editing.KillToEol` | zep.c:544-554 | the point stays and the removed bytes are the ones right after it, from the point up to the returned end `q`; on a newline or the text's last byte exactly one byte goes; otherwise no newline is removed, the cut puts the removed bytes in the clipboard; page, end of page and column are kept, the modified flag is set exactly when something was removed, the one-byte delete keeps mark and clipboard, the cut clears the mark when it removes bytes and leaves it on the point and the clipboard untouched when it removes none; and where line starts are exact `q` is the last byte of the point's screen line, which stays in place |
| `Editing.CutToLineEnd` | zep.c:550-552 | marking the point, going to the line end and cutting removes the bytes from the point to the last byte `q` of the point's screen line, not including it, and puts them in the clipboard when any are removed; page, end of page and column are kept, the modified flag is set and the mark cleared exactly when bytes are removed, and otherwise the mark stays on the point and the clipboard is untouched |
| `Editing.LnEndFromMark` | zep.c:550-551 | `lnend` with the mark set at the point lands at or after the point, crossing no newline, and where line starts are exact on the last byte of the point's screen line |
| `Search.MatchLen` | zep.c:565-566 | the inner scan matches the whole pattern exactly when the pattern occurs at that offset |
| `Search.SearchFrom` | zep.c:564-569 | the scan returns -1 exactly when no occurrence starts at or after `p`, and otherwise the end of the first such occurrence |
| `Search.SearchForward` | zep.c:556-570 | an empty pattern gives `start`; otherwise the result is `p` plus the pattern length for the least `p >= start` where the pattern occurs, or -1 if there is none; any result lies between `start` plus the pattern length and `len` |
| `Search.Begin` | zep.c:576-581 | a session starts with an empty pattern and saves the point |
| `Search.Key` | zep.c:583-625 | esc ends with the current point; ctrl-g ends with the saved point; ctrl-s/LF moves the point to the first match end, or to 0 when nothing matches; backspace on an empty pattern does nothing, otherwise it drops the last byte; a printable key is appended only while the pattern is under 63 bytes; the pattern bound and the point's range are kept |
| `Search.RunSearch` | zep.c:583-625 | over any key sequence the pattern stays within 63 bytes, the point within the text, and the saved point unchanged |
| `Search.AbortRestoresOrigin` | zep.c:590-592 | ctrl-g after any keys that do not end the session returns to the point saved on entry |
| `Search.EscapeKeepsPoint` | zep.c:586-589 | esc after any keys that do not end the session keeps the point the session has reached |
| `Search.SearchCommand` | zep.c:572-626 | of the editing state modelled, a search session changes only the point, keeps it within the text, and leaves it where it started when the keys end with ctrl-g |

## Left out

- Screen painting is not modelled: `display`, `modeline`, `dispmsg` and the `msg` status text. This includes the page reframing inside `display` and the cursor row and column it records. `page`, `epage` and `col` are plain fields that painting would set. Column widths there depend on the locale's `isprint`/`unctrl`.
- `pgup` and `pgdown` are not modelled. They depend on `b_row`/`b_epage` from painting.
- `get_key`, the key binding table, `main` and `quit` are not modelled. They are blocking terminal input and process control. `search()` reads its keys from a sequence parameter.
- File I/O is not modelled: `save`, `insert_file`, `fatal` and `new_buffer`.
- Allocation always succeeds. The failure paths of `growgap` (including its negative-length check) and of `copy_cut`'s `malloc` are not modelled. On the latter, `nscrap` stays set while `scrap` is NULL.
- GapBuffer.GrowGap: the bytes that `realloc` adds are unspecified in the source; the model fills them with zeros, and they only ever lie inside the gap.
- Editing.CopyCut: requires the mark to be unset or within the text. Backspace and delete do not adjust the mark, so it can end up past the end of text. The source would then copy, or cut, bytes beyond the end of storage.
- Editing.KillToEol: requires the point to be before the end of text. At the end, the source reads the byte one past the end of storage.
- Search.Key: esc also flushes pending terminal input (`flushinp`), and a successful search repaints the screen; neither is modelled. `isprint` is taken in the C locale (0x20 to 0x7e).
- Search.SearchForward: the pattern is the byte sequence before `searchtext`'s NUL terminator. The source compares a pattern `char` with a text byte, so where `char` is signed, pattern bytes 0x80 to 0xff never match; the model compares bytes and matches them. `search()` only appends printable bytes, so this cannot arise from the editor. At the end of text the source's inner loop reads one byte past storage before it checks the bound. The model checks the bound first, which gives the same result.
- Search.SearchCommand: a successful search repaints the screen (`display()`, zep.c:599), which rewrites `b_page`, `b_epage` and `b_col`; the model keeps those fields unchanged, as painting is not modelled.
- Editing.UpLands, Editing.DownLands, Editing.UpAfterDown, Editing.DownAfterUp, Editing.LnBeginLands, Editing.LnBeginFromInside, Editing.LnBeginIdempotent, Editing.LnEndLands, Editing.LnEndAfterLnBegin: proved only where `LineStartsExact` holds. With a newline at offset 0 and the gap elsewhere, `lnstart` skips that newline, and the screen lines `upup` and `dndn` walk are no longer the reference ones.
- Layout.LineBeginStarts, Layout.LineBeginHolds, Layout.LineBeginWithin, Layout.ScreenStartBegins, Layout.LineBeginSameLine, Layout.DnDnEndsScreenLine, Layout.DnDnAtScreenStart, Layout.DnDnScreenStart, Layout.LineBeginDown, Layout.LastOfLine, Layout.DnDnFromPrevious, Layout.UpUpWithinLine, Layout.UpUpAcrossLine, Layout.UpUpFirstLine, Layout.UpUpStartsPrevious, Layout.UpUpFromLater, Layout.UpUpFromFirst, Layout.LineBeginUp, Layout.UpUpScreenStartAfter, Layout.UpUpScreenStartFirst, Layout.UpUpScreenStart, Layout.DnDnUpUp, Layout.UpUpFromNext, Layout.UpUpDnDn: proved only where `LineStartsExact` holds. With a newline at offset 0 and the gap elsewhere, `lnstart` skips that newline, so `lnbegin`, `upup` and `dndn` walk segments of a different logical line than the text has. `Layout.InexactLineStartScenario` proves an instance: on `"\nabcdefg"` with the gap at the end and width 3, 7 is a screen start, `upup(7)` is 3, and `dndn(3)` is 6, not 7.
- Editing.KillToEol, Editing.CutToLineEnd, Editing.LnEndFromMark: the screen-line end of the cut is stated only where `LineStartsExact` holds, for the same reason.
- `copy` and `cut` are `CopyCut` with `cut` false and true.
- Integers are unbounded. `Point` (`ssize_t`) and the `int` column counters cannot overflow for any buffer that fits in memory.

=== FILE: bytes.dfy ===
/** Bytes of the edited text and the few byte values the editor treats specially. */
module Bytes {

  /** zep stores text as unsigned 8-bit units (its `Rune`). */
  type byte = bv8

  /** Line feed: ends a logical line. */
  const NL: byte := 0x0A

  /** Horizontal tab: advances to the next multiple-of-8 column. */
  const TAB: byte := 0x09

  /** Carriage return: stored as a line feed when typed. */
  const CR: byte := 0x0D
}

=== FILE: editing.dfy ===
/** The editing commands of zep over one buffer: inserting and deleting at the
    point, the mark and the clipboard (`scrap`), and cursor motions. */
module Editing {
  import opened Bytes
  import opened GapBuffer
  import opened Layout

  /** The mark value meaning "no mark set". */
  const NOMARK: int := -1

  /** Growth requested by insert when the gap is full. */
  const CHUNK: int := 8096

  /** The buffer record plus the clipboard. `page`, `epage` and `col` are set by
      the screen painter; `col` is read back by vertical motion. */
  datatype Editor = Editor(
    buf: Buffer,
    point: int,
    mark: int,
    page: int,
    epage: int,
    col: int,
    modified: bool,
    scrap: seq<byte>)

  /** The point is a logical offset and the mark is unset or non-negative. The
      mark is not bounded by the text length: deleting text leaves it alone. */
  predicate Inv(e: Editor)
  {
    Valid(e.buf) && 0 <= e.point <= Len(e.buf) && (e.mark == NOMARK || 0 <= e.mark)
  }

  /** The byte insert stores for a typed byte: a carriage return becomes a line feed. */
  function StoredByte(c: byte): (d: byte)
    ensures d != CR
    ensures c == CR ==> d == NL
    ensures c != CR ==> d == c
  {
    if c == CR then NL else c
  }

  /** `insert`: splices one byte in at the point and steps past it. */
  method Insert(e: Editor, c: byte) returns (e': Editor)
    requires Inv(e)
    ensures Inv(e')
    ensures Text(e'.buf) == Text(e.buf)[..e.point] + [StoredByte(c)] + Text(e.buf)[e.point..]
    ensures e'.point == e.point + 1 && e'.modified
    ensures e'.(buf := e.buf, point := e.point, modified := e.modified) == e
  {
    var b := e.buf;
    if b.gap == b.egap {
      b := GrowGap(b, CHUNK);
    }
    var point;
    b, point := MoveGap(b, e.point);
    SplitAtGap(b);
    var b1 := Buffer(b.store[b.gap := StoredByte(c)], b.gap + 1, b.egap);
    assert b1.store[..b1.gap] == b.store[..b.gap] + [StoredByte(c)];
    assert b1.store[b1.egap..] == b.store[b.egap..];
    point := Pos(b1, b1.egap);
    e' := e.(buf := b1, point := point, modified := true);
  }

  /** `backsp`: removes the byte before the point; nothing happens at the start. */
  method Backspace(e: Editor) returns (e': Editor)
    requires Inv(e)
    ensures Inv(e')
    ensures e.point == 0 ==> Text(e'.buf) == Text(e.buf) && e'.point == 0 && e'.modified == e.modified
    ensures 0 < e.point ==>
      && Text(e'.buf) == Text(e.buf)[..e.point - 1] + Text(e.buf)[e.point..]
      && e'.point == e.point - 1
      && e'.modified
    ensures e'.(buf := e.buf, point := e.point, modified := e.modified) == e
  {
    var b, point := MoveGap(e.buf, e.point);
    var modified := e.modified;
    if 0 < b.gap {
      var g := b.gap - 1;
      BackAtGap(b, g);
      b := b.(gap := g);
      modified := true;
    }
    point := Pos(b, b.egap);
    e' := e.(buf := b, point := point, modified := modified);
  }

  /** With the gap at `g + 1`, narrowing the gap's start by one removes the
      byte before offset `g + 1`. */
  lemma BackAtGap(b: Buffer, g: int)
    requires Valid(b) && 0 <= g && g + 1 == b.gap
    ensures Valid(b.(gap := g))
    ensures Text(b.(gap := g)) == Text(b)[..g] + Text(b)[b.gap..]
  {
    SplitAtGap(b);
    assert b.store[..g] == Text(b)[..g];
  }

  /** `delete`: removes the byte at the point; nothing happens at the end. */
  method Delete(e: Editor) returns (e': Editor)
    requires Inv(e)
    ensures Inv(e')
    ensures e'.point == e.point
    ensures e.point == Len(e.buf) ==> Text(e'.buf) == Text(e.buf) && e'.modified == e.modified
    ensures e.point < Len(e.buf) ==>
      Text(e'.buf) == Text(e.buf)[..e.point] + Text(e.buf)[e.point + 1..] && e'.modified
    ensures e'.(buf := e.buf, point := e.point, modified := e.modified) == e
  {
    var b, point := MoveGap(e.buf, e.point);
    SplitAtGap(b);
    var modified := e.modified;
    if b.egap < |b.store| {
      b := b.(egap := b.egap + 1);
      point := Pos(b, b.egap);
      modified := true;
    }
    e' := e.(buf := b, point := point, modified := modified);
  }

  /** `set_mark`: clears the mark when it sits at the point, else sets it there. */
  function SetMark(e: Editor): (e': Editor)
    requires Inv(e)
    ensures Inv(e')
    ensures e'.mark == NOMARK <==> e.mark == e.point
    ensures e'.mark != NOMARK ==> e'.mark == e.point
    ensures e'.(mark := e.mark) == e
  {
    e.(mark := if e.mark == e.point then NOMARK else e.point)
  }

  /** The selection [lo, hi) between point and mark lies within the text. */
  predicate MarkInText(e: Editor)
    requires Valid(e.buf)
  {
    e.mark == NOMARK || e.mark <= Len(e.buf)
  }

  /** A mark is set away from the point, so there is a region to copy. */
  predicate Selected(e: Editor)
  {
    e.mark != NOMARK && e.mark != e.point
  }

  /** `copy_cut`: copies the region between point and mark into the clipboard
      and clears the mark; a cut also removes the region and leaves the point at
      its lower end. Nothing happens without a mark or with an empty region. */
  method CopyCut(e: Editor, cut: bool) returns (e': Editor)
    requires Inv(e) && MarkInText(e)
    ensures Inv(e')
    ensures !Selected(e) ==> e' == e
    ensures Selected(e) ==>
      e'.scrap == Text(e.buf)[Min(e.point, e.mark)..Max(e.point, e.mark)] && e'.mark == NOMARK
    ensures Selected(e) && cut ==>
      && Text(e'.buf) == Text(e.buf)[..Min(e.point, e.mark)] + Text(e.buf)[Max(e.point, e.mark)..]
      && e'.point == Min(e.point, e.mark)
      && e'.modified
    ensures Selected(e) && !cut ==>
      Text(e'.buf) == Text(e.buf) && e'.point == e.point && e'.modified == e.modified
    ensures e'.page == e.page && e'.epage == e.epage && e'.col == e.col
  {
    if e.mark == NOMARK || e.point == e.mark {
      return e;
    }
    // the gap goes to the lower end of the region, point or mark
    var lo, n := Min(e.point, e.mark), Max(e.point, e.mark) - Min(e.point, e.mark);
    var b, _ := MoveGap(e.buf, lo);
    ghost var t := Text(e.buf);
    CutAtGap(b, n);
    var p := Ptr(b, lo);
    var scrap := b.store[p..p + n];
    assert scrap == t[lo..lo + n];
    if cut {
      var b1 := b.(egap := b.egap + n);
      assert Valid(b1) && Text(b1) == t[..lo] + t[lo + n..];
      var point := Pos(b1, b1.egap);
      assert point == lo && lo <= Len(b1);
      e' := Editor(b1, point, NOMARK, e.page, e.epage, e.col, true, scrap);
    } else {
      e' := Editor(b, e.point, NOMARK, e.page, e.epage, e.col, e.modified, scrap);
    }
  }

  /** With the gap at `b.gap`, the `n` bytes after the gap are the text's bytes
      [gap, gap + n), and widening the gap over them removes exactly those. */
  lemma CutAtGap(b: Buffer, n: int)
    requires Valid(b) && 0 <= n && b.gap + n <= Len(b)
    ensures Ptr(b, b.gap) == b.egap
    ensures b.store[b.egap..b.egap + n] == Text(b)[b.gap..b.gap + n]
    ensures Valid(b.(egap := b.egap + n))
    ensures Text(b.(egap := b.egap + n)) == Text(b)[..b.gap] + Text(b)[b.gap + n..]
  {
  }

  /** `paste`: inserts the clipboard at the point and steps past it; nothing
      happens when the clipboard is empty. */
  method Paste(e: Editor) returns (e': Editor)
    requires Inv(e)
    ensures Inv(e')
    ensures |e.scrap| == 0 ==> e' == e
    ensures 0 < |e.scrap| ==>
      && Text(e'.buf) == Text(e.buf)[..e.point] + e.scrap + Text(e.buf)[e.point..]
      && e'.point == e.point + |e.scrap|
      && e'.modified
    ensures e'.(buf := e.buf, point := e.point, modified := e.modified) == e
  {
    var n := |e.scrap|;
    if n <= 0 {
      return e;
    }
    var b := e.buf;
    if !(n < b.egap - b.gap) {
      b := GrowGap(b, n);
    }
    var point;
    b, point := MoveGap(b, e.point);
    SplitAtGap(b);
    var b1 := Buffer(b.store[..b.gap] + e.scrap + b.store[b.gap + n..], b.gap + n, b.egap);
    assert b1.store[..b1.gap] == b.store[..b.gap] + e.scrap;
    assert b1.store[b1.egap..] == b.store[b.egap..];
    point := Pos(b1, b1.egap);
    e' := e.(buf := b1, point := point, modified := true);
  }

  /** An insert undone by a backspace gives back the text and the point. */
  method InsertThenBackspace(e: Editor, c: byte) returns (e': Editor)
    requires Inv(e)
    ensures Inv(e')
    ensures Text(e'.buf) == Text(e.buf) && e'.point == e.point
    ensures e'.mark == e.mark && e'.scrap == e.scrap
  {
    var e1 := Insert(e, c);
    e' := Backspace(e1);
    var t := Text(e.buf);
    assert Text(e1.buf)[..e.point] == t[..e.point];
    assert Text(e1.buf)[e.point + 1..] == t[e.point..];
  }

  /** A cut followed at once by a paste gives back the text, with the point at
      the upper end of the region and the region in the clipboard. */
  method CutThenPaste(e: Editor) returns (e': Editor)
    requires Inv(e) && MarkInText(e) && e.mark != NOMARK && e.mark != e.point
    ensures Inv(e')
    ensures Text(e'.buf) == Text(e.buf)
    ensures e'.point == Max(e.point, e.mark)
    ensures e'.scrap == Text(e.buf)[Min(e.point, e.mark)..Max(e.point, e.mark)]
    ensures e'.mark == NOMARK && e'.modified
  {
    var e1 := CopyCut(e, true);
    e' := Paste(e1);
    var t := Text(e.buf);
    var lo, hi := Min(e.point, e.mark), Max(e.point, e.mark);
    assert Text(e1.buf)[..lo] == t[..lo];
    assert Text(e1.buf)[lo..] == t[hi..];
    assert t == t[..lo] + t[lo..hi] + t[hi..];
  }

  /** `top`: the point goes to the start of the text. */
  function Top(e: Editor): (e': Editor)
    requires Inv(e)
    ensures Inv(e') && e'.point == 0
    ensures e'.(point := e.point) == e
  {
    e.(point := 0)
  }

  /** `bottom`: the point and the page end go to the end of the text. */
  function Bottom(e: Editor): (e': Editor)
    requires Inv(e)
    ensures Inv(e') && e'.point == |Text(e.buf)| && e'.epage == e'.point
    ensures e'.(point := e.point, epage := e.epage) == e
  {
    e.(point := Len(e.buf), epage := Len(e.buf))
  }

  /** `left`: one byte back, unless at the start. */
  function Left(e: Editor): (e': Editor)
    requires Inv(e)
    ensures Inv(e')
    ensures e'.point == Max(e.point - 1, 0)
    ensures e'.(point := e.point) == e
  {
    if 0 < e.point then e.(point := e.point - 1) else e
  }

  /** `right`: one byte forward, unless at the end. */
  function Right(e: Editor): (e': Editor)
    requires Inv(e)
    ensures Inv(e')
    ensures e'.point == Min(e.point + 1, |Text(e.buf)|)
    ensures e'.(point := e.point) == e
  {
    if e.point < Len(e.buf) then e.(point := e.point + 1) else e
  }

  /** Away from the ends, `left` and `right` undo each other. */
  lemma LeftRightInverse(e: Editor)
    requires Inv(e)
    ensures 0 < e.point ==> Right(Left(e)) == e
    ensures e.point < Len(e.buf) ==> Left(Right(e)) == e
  {
  }

  /** `up`: to the screen line above, at the remembered column `col`. */
  function Up(e: Editor, w: int): (e': Editor)
    requires Inv(e) && 0 < w
    ensures Inv(e')
    ensures e'.(point := e.point) == e
    ensures UpUp(e.buf, e.point, w) <= e'.point
    ensures NoNewline(Text(e.buf), UpUp(e.buf, e.point, w), e'.point)
    ensures e.col <= 0 && 0 < e.point ==> e'.point < e.point
    ensures var t, u, p := Text(e.buf), UpUp(e.buf, e.point, w), e'.point;
      && (p == |t| || t[p] == NL || e.col <= Col(t, u, p))
      && (u < p ==> Col(t, u, p - 1) < e.col)
  {
    e.(point := LnColumn(Text(e.buf), UpUp(e.buf, e.point, w), e.col))
  }

  /** `down`: to the screen line below, at the remembered column `col`; short
      of the end of text this moves strictly forward, and at the end of text it
      stays there. */
  function Down(e: Editor, w: int): (e': Editor)
    requires Inv(e) && 0 < w
    ensures Inv(e')
    ensures e'.(point := e.point) == e
    ensures e.point < Len(e.buf) ==> e.point < e'.point
    ensures DnDn(e.buf, e.point, w) <= e'.point
    ensures DnDn(e.buf, e.point, w) == Len(e.buf) ==> e'.point == Len(e.buf)
    ensures var t, d, p := Text(e.buf), DnDn(e.buf, e.point, w), e'.point;
      && (p == |t| || t[p] == NL || e.col <= Col(t, d, p))
      && (d < p ==> Col(t, d, p - 1) < e.col)
  {
    e.(point := LnColumn(Text(e.buf), DnDn(e.buf, e.point, w), e.col))
  }

  /** `lnbegin`: to the start of the screen line holding the point. */
  function LnBegin(e: Editor, w: int): (e': Editor)
    requires Inv(e) && 0 < w
    ensures Inv(e')
    ensures e'.(point := e.point) == e
    ensures LnStart(e.buf, e.point) <= e'.point <= e.point
    ensures NoNewline(Text(e.buf), e'.point, e.point)
  {
    e.(point := LineBegin(e.buf, w, e.point))
  }

  /** `lnend`: to the last byte of the screen line holding the point. Short of
      the end of text the point does not move back and crosses no newline; at
      the end of text it steps back onto the last byte. */
  function LnEnd(e: Editor, w: int): (e': Editor)
    requires Inv(e) && 0 < w
    ensures Inv(e')
    ensures e'.(point := e.point) == e
    ensures e.point < Len(e.buf) ==> e.point <= e'.point && NoNewline(Text(e.buf), e.point, e'.point)
    ensures e.point == Len(e.buf) ==> e'.point == Max(Len(e.buf) - 1, 0)
  {
    Left(e.(point := DnDn(e.buf, e.point, w)))
  }

  /** `lnbegin` lands on a screen-line start, and short of the end of text the
      point lies inside the screen line starting there. */
  lemma LnBeginLands(e: Editor, w: int)
    requires Inv(e) && 0 < w && LineStartsExact(e.buf)
    ensures ScreenStart(Text(e.buf), w, LnBegin(e, w).point)
    ensures e.point < Len(e.buf) ==>
      LnBegin(e, w).point <= e.point < DnDn(e.buf, LnBegin(e, w).point, w)
  {
    LineBeginStarts(e.buf, w, e.point);
    if e.point < Len(e.buf) {
      LineBeginHolds(e.buf, w, e.point);
    }
  }

  /** Conversely, `lnbegin` from inside the screen line starting at `s` goes
      to `s`. */
  lemma LnBeginFromInside(e: Editor, w: int, s: int)
    requires Inv(e) && 0 < w && LineStartsExact(e.buf) && 0 <= s <= e.point < Len(e.buf)
    requires ScreenStart(Text(e.buf), w, s) && e.point < DnDn(e.buf, s, w)
    ensures LnBegin(e, w).point == s
  {
    LineBeginWithin(e.buf, w, s, e.point);
  }

  /** `lnbegin` twice is `lnbegin` once. */
  lemma LnBeginIdempotent(e: Editor, w: int)
    requires Inv(e) && 0 < w && LineStartsExact(e.buf)
    ensures LnBegin(LnBegin(e, w), w) == LnBegin(e, w)
  {
    var s := LineBegin(e.buf, w, e.point);
    LineBeginStarts(e.buf, w, e.point);
    ScreenStartBegins(e.buf, w, s);
  }

  /** Short of the end of text, `lnend` lands on the last byte of the point's
      screen line: the byte before the next screen line, or before the end of
      text. That byte is still on the point's screen line. */
  lemma LnEndLands(e: Editor, w: int)
    requires Inv(e) && 0 < w && LineStartsExact(e.buf) && e.point < Len(e.buf)
    ensures var r, d := LnEnd(e, w).point, DnDn(e.buf, e.point, w);
      && r + 1 == d
      && LineBegin(e.buf, w, r) == LineBegin(e.buf, w, e.point)
      && (d == Len(e.buf) || ScreenStart(Text(e.buf), w, d))
  {
    var r, d := LnEnd(e, w).point, DnDn(e.buf, e.point, w);
    LnEndBeforeDown(e, w, r, d);
    LastOfLine(e.buf, w, e.point, r);
    if d < Len(e.buf) {
      DnDnScreenStart(e.buf, w, e.point);
    }
  }

  /** Short of the end of text, `lnend` stops one byte short of where `dndn` goes. */
  lemma LnEndBeforeDown(e: Editor, w: int, r: int, d: int)
    requires Inv(e) && 0 < w && e.point < Len(e.buf)
    requires r == LnEnd(e, w).point && d == DnDn(e.buf, e.point, w)
    ensures r + 1 == d
  {
  }

  /** `lnend` after `lnbegin` goes where `lnend` alone goes. */
  lemma LnEndAfterLnBegin(e: Editor, w: int)
    requires Inv(e) && 0 < w && LineStartsExact(e.buf)
    ensures LnEnd(LnBegin(e, w), w) == LnEnd(e, w)
  {
    LineBeginDown(e.buf, w, e.point);
  }

  /** `up` lands in the screen line above the point's: from the first screen
      line that is the first screen line itself, otherwise the screen line that
      ends where the point's begins. With a column within the width the point
      goes no further than that line's end. */
  lemma UpLands(e: Editor, w: int)
    requires Inv(e) && 0 < w && LineStartsExact(e.buf)
    ensures var u := UpUp(e.buf, e.point, w);
      && ScreenStart(Text(e.buf), w, u)
      && (LineBegin(e.buf, w, e.point) == 0 ==> u == 0)
      && (0 < LineBegin(e.buf, w, e.point) ==> DnDn(e.buf, u, w) == LineBegin(e.buf, w, e.point))
      && (e.col <= w ==> Up(e, w).point <= DnDn(e.buf, u, w))
  {
    var s, u := LineBegin(e.buf, w, e.point), UpUp(e.buf, e.point, w);
    UpUpScreenStart(e.buf, w, e.point);
    LineBeginUp(e.buf, w, e.point);
    if s == 0 {
      UpUpFromFirst(e.buf, w, e.point);
    } else {
      LineBeginStarts(e.buf, w, e.point);
      DnDnUpUp(e.buf, w, s);
    }
    if e.col <= w {
      LnColumnWithinSegment(Text(e.buf), w, u, e.col);
      DnDnAtScreenStart(e.buf, w, u);
    }
  }

  /** `down`, short of the last screen line, lands in the screen line below the
      point's: one that starts a screen line whose predecessor is the point's.
      With a column within the width the point goes no further than its end. */
  lemma DownLands(e: Editor, w: int)
    requires Inv(e) && 0 < w && LineStartsExact(e.buf)
    ensures var d := DnDn(e.buf, e.point, w);
      d < Len(e.buf) ==>
        && ScreenStart(Text(e.buf), w, d)
        && UpUp(e.buf, d, w) == LineBegin(e.buf, w, e.point)
        && (e.col <= w ==> Down(e, w).point <= DnDn(e.buf, d, w))
  {
    var d, s := DnDn(e.buf, e.point, w), LineBegin(e.buf, w, e.point);
    if d < Len(e.buf) {
      DnDnScreenStart(e.buf, w, e.point);
      LineBeginStarts(e.buf, w, e.point);
      LineBeginDown(e.buf, w, e.point);
      UpUpDnDn(e.buf, w, s);
      if e.col <= w {
        LnColumnWithinSegment(Text(e.buf), w, d, e.col);
        DnDnAtScreenStart(e.buf, w, d);
      }
    }
  }

  /** From a screen-line start with column 0, `up` undoes `down` short of the
      last screen line. */
  lemma UpAfterDown(e: Editor, w: int)
    requires Inv(e) && 0 < w && LineStartsExact(e.buf) && e.col == 0
    requires ScreenStart(Text(e.buf), w, e.point) && DnDn(e.buf, e.point, w) < Len(e.buf)
    ensures Up(Down(e, w), w) == e
  {
    UpUpDnDn(e.buf, w, e.point);
  }

  /** From a screen-line start with column 0, `down` undoes `up` away from the
      first screen line. */
  lemma DownAfterUp(e: Editor, w: int)
    requires Inv(e) && 0 < w && LineStartsExact(e.buf) && e.col == 0
    requires ScreenStart(Text(e.buf), w, e.point) && 0 < e.point
    ensures Down(Up(e, w), w) == e
  {
    DnDnUpUp(e.buf, w, e.point);
  }

  /** `killtoeol`, for a point before the end of text: on a newline or the last
      byte it deletes that byte; otherwise it cuts from the point to the end of
      the visual line. Also returns the end `q` of the bytes removed, which
      always follow the point; only at a newline is a newline removed. */
  method KillToEol(e: Editor, w: int) returns (e': Editor, q: int)
    requires Inv(e) && 0 < w && e.point < Len(e.buf)
    ensures Inv(e')
    ensures e'.point == e.point <= q <= Len(e.buf)
    ensures Text(e'.buf) == Text(e.buf)[..e.point] + Text(e.buf)[q..]
    ensures e'.page == e.page && e'.epage == e.epage && e'.col == e.col
    ensures e'.modified == (e.modified || e.point < q)
    ensures Text(e.buf)[e.point] != NL ==> NoNewline(Text(e.buf), e.point, q)
    ensures Text(e.buf)[e.point] == NL || e.point + 1 == Len(e.buf) ==>
      && q == e.point + 1
      && e'.mark == e.mark && e'.scrap == e.scrap
    ensures Text(e.buf)[e.point] != NL && e.point + 1 < Len(e.buf) ==>
      && (e.point < q ==> e'.scrap == Text(e.buf)[e.point..q])
      && e'.mark == (if e.point < q then NOMARK else e.point)
      && (e.point == q ==> e'.scrap == e.scrap)
      && (LineStartsExact(e.buf) ==> LastOfScreenLineAt(e.buf, w, e.point, q))
  {
    var t := Text(e.buf);
    if t[e.point] == NL || e.point + 1 == Len(e.buf) {
      e' := Delete(e);
      q := e.point + 1;
    } else {
      e', q := CutToLineEnd(e, w);
    }
  }

  /** The second branch of `killtoeol`: mark the point, go to the end of the
      visual line, and cut. Returns the end `q` of the region removed, which
      holds no newline; when `q` is the point nothing is cut. */
  method CutToLineEnd(e: Editor, w: int) returns (e': Editor, q: int)
    requires Inv(e) && 0 < w && e.point < Len(e.buf)
    ensures Inv(e')
    ensures e'.point == e.point <= q <= Len(e.buf)
    ensures NoNewline(Text(e.buf), e.point, q)
    ensures Text(e'.buf) == Text(e.buf)[..e.point] + Text(e.buf)[q..]
    ensures e.point < q ==> e'.scrap == Text(e.buf)[e.point..q]
    ensures LineStartsExact(e.buf) ==> LastOfScreenLineAt(e.buf, w, e.point, q)
    ensures e'.page == e.page && e'.epage == e.epage && e'.col == e.col
    ensures e'.modified == (e.modified || e.point < q)
    ensures e'.mark == (if e.point < q then NOMARK else e.point)
    ensures e.point == q ==> e'.scrap == e.scrap
  {
    var e1 := LnEnd(e.(mark := e.point), w);
    q := e1.point;
    LnEndFromMark(e, w, q);
    e' := CopyCut(e1, true);
  }

  /** Where `lnend` goes from the point, with the mark set there. */
  lemma LnEndFromMark(e: Editor, w: int, q: int)
    requires Inv(e) && 0 < w && e.point < Len(e.buf)
    requires q == LnEnd(e.(mark := e.point), w).point
    ensures e.point <= q < Len(e.buf) && NoNewline(Text(e.buf), e.point, q)
    ensures LineStartsExact(e.buf) ==> LastOfScreenLineAt(e.buf, w, e.point, q)
  {
    assert q == LnEnd(e, w).point;
    if LineStartsExact(e.buf) {
      LnEndLands(e, w);
    }
  }

  /** `q` is the last byte of the screen line holding `p`: the next screen
      line, or the end of text, follows it, and it lies on `p`'s screen line. */
  predicate LastOfScreenLineAt(b: Buffer, w: int, p: int, q: int)
    requires Valid(b) && 0 <= p <= Len(b) && 0 < w
  {
    0 <= q < Len(b) && q + 1 == DnDn(b, p, w) && LineBegin(b, w, q) == LineBegin(b, w, p)
  }

  /** "ab\tXY" at width 4: the tab at column 2 ends the first screen line, so
      the second starts at offset 3. */
  const TabBuffer: Buffer := Buffer([0x61, 0x62, TAB, 0x58, 0x59], 5, 5)

  /** With `col` 3, `up` from the second screen line of `TabBuffer` walks from
      0, and the tab carries the column from 2 to 8, past `col`, so the walk
      stops on offset 3: the start of the point's own screen line, not the
      line above. */
  lemma UpTabOvershootScenario()
    ensures LineStartsExact(TabBuffer)
    ensures UpUp(TabBuffer, 4, 4) == 0 && DnDn(TabBuffer, 0, 4) == 3
    ensures LineBegin(TabBuffer, 4, 4) == 3
    ensures Up(Editor(TabBuffer, 4, NOMARK, 0, 0, 3, false, []), 4).point == 3
  {
    var t := Text(TabBuffer);
    assert Col(t, 0, 1) == 1 && Col(t, 0, 2) == 2 && Col(t, 0, 3) == 8;
  }

  /** "abcdab\tXY" at width 4: the screen lines start at 0, 4 and 7. */
  const TabBelowBuffer: Buffer := Buffer([0x61, 0x62, 0x63, 0x64, 0x61, 0x62, TAB, 0x58, 0x59], 9, 9)

  /** With `col` 3, `down` from offset 0 walks from 4, and the tab carries the
      column from 2 to 8, so the point lands on 7: the start of the screen
      line after the next one. */
  lemma DownTabOvershootScenario()
    ensures LineStartsExact(TabBelowBuffer)
    ensures DnDn(TabBelowBuffer, 0, 4) == 4 && DnDn(TabBelowBuffer, 4, 4) == 7
    ensures Down(Editor(TabBelowBuffer, 0, NOMARK, 0, 0, 3, false, []), 4).point == 7
  {
    TabBelowLines();
    var t := Text(TabBelowBuffer);
    assert Col(t, 4, 5) == 1 && Col(t, 4, 6) == 2 && Col(t, 4, 7) == 8;
  }

  /** The screen lines of `TabBelowBuffer` at width 4 start at 0, 4 and 7. */
  lemma TabBelowLines()
    ensures DnDn(TabBelowBuffer, 0, 4) == 4 && DnDn(TabBelowBuffer, 4, 4) == 7
  {
    TabBelowFirst();
    TabBelowSecond();
  }

  /** The first screen line of `TabBelowBuffer` fills the width at 4. */
  lemma TabBelowFirst()
    ensures DnDn(TabBelowBuffer, 0, 4) == 4
  {
    var t := Text(TabBelowBuffer);
    assert LnStart(TabBelowBuffer, 0) == 0;
    assert SegNextScan(t, 4, 0, 4, 4) == 4 && SegNextScan(t, 4, 0, 3, 3) == 4;
    assert SegNextScan(t, 4, 0, 2, 2) == 4 && SegNextScan(t, 4, 0, 1, 1) == 4;
    assert SegEnd(t, 4, 0) == 4;
  }

  /** From 4, which `segstart` maps to itself, the tab at column 2 ends the
      second screen line at 7. */
  lemma TabBelowSecond()
    ensures DnDn(TabBelowBuffer, 4, 4) == 7
  {
    var t := Text(TabBelowBuffer);
    assert LnStart(TabBelowBuffer, 4) == 0;
    assert SegScan(t, 4, 4, 4, 0, 4) == 4 && SegScan(t, 4, 3, 4, 0, 3) == 4;
    assert SegScan(t, 4, 2, 4, 0, 2) == 4 && SegScan(t, 4, 1, 4, 0, 1) == 4;
    assert SegStart(t, 4, 0, 4) == 4;
    assert Col(t, 4, 5) == 1 && Col(t, 4, 6) == 2 && Col(t, 4, 7) == 8;
    assert SegNextScan(t, 4, 4, 7, 8) == 7 && SegNextScan(t, 4, 4, 6, 2) == 7;
    assert SegNextScan(t, 4, 4, 5, 1) == 7 && SegEnd(t, 4, 4) == 7;
  }
}

=== FILE: gap_buffer.dfy ===
/** The gap buffer of zep: one byte array holding the text with a movable
    region of unused capacity (the gap). Storage positions run from 0 (`b_buf`)
    to |store| (`b_ebuf`); the gap occupies positions [gap, egap). */
module GapBuffer {
  import opened Bytes

  /** Least number of bytes by which growgap enlarges the gap (MIN_GAP_EXPAND). */
  const MinGapExpand: int := 512

  datatype Buffer = Buffer(store: seq<byte>, gap: int, egap: int)

  /** The ordering buf <= gap <= egap <= ebuf the source asserts. */
  predicate Valid(b: Buffer)
  {
    0 <= b.gap <= b.egap <= |b.store|
  }

  /** The logical text: the bytes before the gap followed by the bytes after it. */
  function Text(b: Buffer): (r: seq<byte>)
    requires Valid(b)
  {
    b.store[..b.gap] + b.store[b.egap..]
  }

  /** Number of logical bytes, `pos(bp, bp->b_ebuf)`. */
  function Len(b: Buffer): (n: nat)
    requires Valid(b)
    ensures n == |Text(b)|
  {
    |b.store| - (b.egap - b.gap)
  }

  function Max(a: int, b: int): (r: int) { if a < b then b else a }
  function Min(a: int, b: int): (r: int) { if a < b then a else b }

  /** `ptr`: the storage position of a logical offset; negative offsets clamp to
      the start of storage. */
  function Ptr(b: Buffer, offset: int): (p: int)
    requires Valid(b)
    ensures offset < 0 ==> p == 0
    ensures 0 <= offset <= Len(b) ==> 0 <= p <= |b.store| && (p < b.gap || b.egap <= p)
    ensures 0 <= offset < Len(b) ==> p < |b.store| && b.store[p] == Text(b)[offset]
    ensures offset == Len(b) ==> p == |b.store|
  {
    if offset < 0 then 0
    else offset + (if offset < b.gap then 0 else b.egap - b.gap)
  }

  /** `pos`: the logical offset of a storage position; the source asserts that
      the position lies within storage. */
  function Pos(b: Buffer, p: int): (offset: int)
    requires Valid(b) && 0 <= p <= |b.store|
    ensures (p <= b.gap || b.egap <= p) ==> 0 <= offset <= Len(b)
    ensures (p < b.gap || b.egap <= p) ==> Ptr(b, offset) == p
    ensures p == b.gap || p == b.egap ==> offset == b.gap
  {
    p - (if p < b.egap then 0 else b.egap - b.gap)
  }

  /** Every valid offset survives the trip to storage and back. */
  lemma PosPtr(b: Buffer)
    requires Valid(b)
    ensures forall o :: 0 <= o <= Len(b) ==> Pos(b, Ptr(b, o)) == o
  {
  }

  /** The bytes before the gap are the text before offset `gap`; the bytes after
      the gap are the rest of the text. */
  lemma SplitAtGap(b: Buffer)
    requires Valid(b)
    ensures b.store[..b.gap] == Text(b)[..b.gap]
    ensures b.store[b.egap..] == Text(b)[b.gap..]
  {
  }

  /** One step of `movegap` towards the front: the byte before the gap moves
      to the slot before the gap's end, and the text is unchanged. */
  lemma MoveLeftStep(store: seq<byte>, g: int, gap: int, e: int, egap: int)
    requires 0 <= g && g + 1 == gap <= egap && e + 1 == egap <= |store|
    ensures var s := store[e := store[g]]; s[..g] + s[e..] == store[..gap] + store[egap..]
  {
    var s := store[e := store[g]];
    assert s[..g] == store[..g];
    assert s[e..] == [store[g]] + store[egap..];
    assert store[..gap] == store[..g] + [store[g]];
  }

  /** One step of `movegap` towards the back: the byte at the gap's end moves
      to the gap's start, and the text is unchanged. */
  lemma MoveRightStep(store: seq<byte>, gap: int, g: int, egap: int, e: int)
    requires 0 <= gap && g == gap + 1 && gap <= egap && e == egap + 1 <= |store|
    ensures var s := store[gap := store[egap]]; s[..g] + s[e..] == store[..gap] + store[egap..]
  {
    var s := store[gap := store[egap]];
    assert s[..g] == store[..gap] + [store[egap]];
    assert s[e..] == store[e..];
    assert store[egap..] == [store[egap]] + store[e..];
  }

  /** `movegap`: shifts bytes across the gap one at a time until the gap starts
      at `offset` (clamped at 0), and returns the gap's logical offset. */
  method MoveGap(b: Buffer, offset: int) returns (b': Buffer, r: int)
    requires Valid(b) && offset <= Len(b)
    ensures Valid(b')
    ensures Text(b') == Text(b)
    ensures |b'.store| == |b.store| && b'.egap - b'.gap == b.egap - b.gap
    ensures b'.gap == Max(offset, 0) && r == b'.gap
  {
    var target := Max(offset, 0);
    var n := b.egap - b.gap;
    var p := Ptr(b, offset);
    var store, gap, egap := b.store, b.gap, b.egap;
    while p < gap
      invariant 0 <= gap <= egap <= |store| == |b.store| && egap - gap == n
      invariant store[..gap] + store[egap..] == Text(b)
      invariant (p == target && p <= gap) || (gap == b.gap && p == target + n && target >= gap)
    {
      var g, e := gap - 1, egap - 1;
      MoveLeftStep(store, g, gap, e, egap);
      store := store[e := store[g]];
      gap, egap := g, e;
    }
    while egap < p
      invariant 0 <= gap <= egap <= |store| == |b.store| && egap - gap == n
      invariant store[..gap] + store[egap..] == Text(b)
      invariant (p == target && gap == target) || (p == target + n && gap <= target && egap <= p <= |store|)
    {
      var g, e := gap + 1, egap + 1;
      MoveRightStep(store, gap, g, egap, e);
      store := store[gap := store[egap]];
      gap, egap := g, e;
    }
    b' := Buffer(store, gap, egap);
    r := Pos(b', b'.egap);
  }

  /** `growgap`: enlarges the gap by max(n, MIN_GAP_EXPAND) bytes without moving
      its start. The storage is extended at its end and the bytes after the old
      gap are copied, last byte first, to the end of the larger storage.
      Allocation is taken to succeed. */
  method GrowGap(b: Buffer, n: int) returns (b': Buffer)
    requires Valid(b)
    ensures Valid(b')
    ensures Text(b') == Text(b)
    ensures b'.gap == b.gap
    ensures b'.egap - b'.gap == b.egap - b.gap + Max(n, MinGapExpand)
    ensures |b'.store| == |b.store| + Max(n, MinGapExpand)
  {
    var xgap, xegap, buflen := b.gap, b.egap, |b.store|;
    var m := if n < MinGapExpand then MinGapExpand else n;
    var newlen := buflen + m;
    // the extension's initial contents are unspecified; they end up inside the gap
    var store := b.store + seq(m, _ => 0 as byte);
    var egap, ebuf := newlen, buflen;
    while xegap < ebuf
      invariant xegap <= ebuf <= buflen && egap == ebuf + m && |store| == newlen
      invariant store[..ebuf] == b.store[..ebuf]
      invariant store[egap..] == b.store[ebuf..]
    {
      ghost var before := store;
      ebuf := ebuf - 1;
      egap := egap - 1;
      store := store[egap := store[ebuf]];
      assert store[..ebuf] == before[..ebuf];
      assert store[egap..] == [before[ebuf]] + before[egap + 1..];
      assert b.store[ebuf..] == [b.store[ebuf]] + b.store[ebuf + 1..];
    }
    b' := Buffer(store, xgap, egap);
    assert store[..xgap] == b.store[..xegap][..xgap];
  }
}

=== FILE: layout.dfy ===
/** Layout scans of zep: logical line starts, wrapped visual segments of at
    most `w` columns (the terminal width), and column lookup, with tab stops
    every 8 columns. */
module Layout {
  import opened Bytes
  import opened GapBuffer

  /** The running column after showing byte `ch` at column `c`. */
  function Advance(c: int, ch: byte): (r: int)
    ensures c < r
    ensures ch == TAB ==> r % 8 == 0 && r - c <= 8
    ensures ch != TAB ==> r == c + 1
  {
    c + (if ch == TAB then 8 - c % 8 else 1)
  }

  lemma AdvanceMonotone(c1: int, c2: int, ch: byte)
    requires c1 <= c2
    ensures Advance(c1, ch) <= Advance(c2, ch)
  {
  }

  /** Reference column: where a row that starts at offset `lo` has reached
      after showing the bytes [lo, hi). */
  function Col(t: seq<byte>, lo: int, hi: int): (r: int)
    requires 0 <= lo && hi <= |t|
    ensures 0 <= r
    decreases hi - lo
  {
    if hi <= lo then 0 else Advance(Col(t, lo, hi - 1), t[hi - 1])
  }

  lemma {:induction false} ColMonotone(t: seq<byte>, lo: int, a: int, b: int)
    requires 0 <= lo <= a <= b <= |t|
    ensures Col(t, lo, a) <= Col(t, lo, b)
    decreases b - a
  {
    if a < b {
      ColMonotone(t, lo, a, b - 1);
    }
  }

  predicate NoNewline(t: seq<byte>, lo: int, hi: int)
    requires 0 <= lo && hi <= |t|
  {
    forall i :: lo <= i < hi ==> t[i] != NL
  }

  /** `lnstart`: the start of the logical line holding `off`, found by scanning
      storage backwards. The scan stops as soon as it reaches the first storage
      position, so a newline at offset 0 is seen only when that offset is not
      stored at position 0, i.e. when the gap is at the start and non-empty. */
  function LnStart(b: Buffer, off: int): (r: int)
    requires Valid(b) && off <= Len(b)
    ensures 0 <= r && (off < 0 ==> r == 0) && (0 <= off ==> r <= off)
    ensures r == 0 || Text(b)[r - 1] == NL
    ensures forall k :: r <= k < off && 0 < k ==> Text(b)[k] != NL
    ensures r == 1 ==> Ptr(b, 0) > 0
    ensures 0 < off && r == 0 && Text(b)[0] == NL ==> Ptr(b, 0) == 0
    decreases off
  {
    var p := Ptr(b, off - 1);
    if 0 < p && b.store[p] != NL then LnStart(b, off - 1)
    else if 0 < p then off
    else 0
  }

  /** A storage position other than 0 holds offset 0 exactly when the gap sits
      at the start of storage and is not empty. */
  lemma PtrZero(b: Buffer)
    requires Valid(b)
    ensures Ptr(b, 0) > 0 <==> b.gap == 0 && 0 < b.egap
  {
  }

  /** `lnstart` finds the true start of every logical line unless the text
      starts with a newline stored at position 0, the one case its scan misses. */
  predicate LineStartsExact(b: Buffer)
    requires Valid(b)
  {
    Len(b) == 0 || Text(b)[0] != NL || 0 < Ptr(b, 0)
  }

  /** The start of the logical line holding `off`, read off the text: just
      past the last newline before `off`, or 0. */
  function LineStartOf(t: seq<byte>, off: int): (r: int)
    requires 0 <= off <= |t|
    ensures 0 <= r <= off && (r == 0 || t[r - 1] == NL)
    ensures NoNewline(t, r, off)
    decreases off
  {
    if off == 0 || t[off - 1] == NL then off else LineStartOf(t, off - 1)
  }

  /** Where line starts are exact, `lnstart` finds the start of the logical
      line. */
  lemma LnStartMatches(b: Buffer, off: int)
    requires Valid(b) && LineStartsExact(b) && 0 <= off <= Len(b)
    ensures LnStart(b, off) == LineStartOf(Text(b), off)
  {
  }

  /** Offsets of one logical line share its start. */
  lemma {:induction false} LineStartSame(t: seq<byte>, x: int, y: int)
    requires 0 <= x <= y <= |t| && NoNewline(t, x, y)
    ensures LineStartOf(t, y) == LineStartOf(t, x)
    decreases y - x
  {
    if x < y {
      assert t[y - 1] != NL;
      LineStartSame(t, x, y - 1);
    }
  }

  /** A segment starting at `s` is closed at `e`: it has taken in a newline as
      its last byte, or its bytes have filled the width. */
  predicate Break(t: seq<byte>, w: int, s: int, e: int)
    requires 0 <= s <= e <= |t|
  {
    s < e && (t[e - 1] == NL || w <= Col(t, s, e))
  }

  /** A segment starting at `s` can end at `e`: it is closed, or the text ends. */
  predicate Stop(t: seq<byte>, w: int, s: int, e: int)
    requires 0 <= s <= e <= |t|
  {
    e == |t| || Break(t, w, s, e)
  }

  /** The loop of `segnext`: scan until end of text, the width, or just past a
      newline; `seg` is where the segment started. The result is the first
      place at or after `scan` where the segment can end. */
  function SegNextScan(t: seq<byte>, w: int, ghost seg: int, scan: int, c: int): (r: int)
    requires 0 < w && 0 <= seg <= scan <= |t|
    requires c == Col(t, seg, scan) && NoNewline(t, seg, scan)
    ensures scan <= r <= |t|
    ensures scan < |t| && c < w ==> scan < r
    ensures NoNewline(t, seg, r - 1)
    ensures Stop(t, w, seg, r)
    ensures forall e :: scan <= e < r ==> !Stop(t, w, seg, e)
    decreases |t| - scan
  {
    if scan == |t| || w <= c then scan
    else if t[scan] == NL then scan + 1
    else SegNextScan(t, w, seg, scan + 1, Advance(c, t[scan]))
  }

  /** The end of the segment that starts at `s`: the first offset where it can
      end. Its bytes fit the width up to their last one. */
  function SegEnd(t: seq<byte>, w: int, s: int): (r: int)
    requires 0 < w && 0 <= s <= |t|
    ensures s <= r <= |t| && Stop(t, w, s, r)
    ensures forall e :: s <= e < r ==> !Stop(t, w, s, e)
    ensures s < |t| ==> s < r
    ensures NoNewline(t, s, r - 1)
    ensures s < r ==> Col(t, s, r - 1) < w
  {
    var r := SegNextScan(t, w, s, s, 0);
    assert s < r ==> !Stop(t, w, s, r - 1);
    r
  }

  /** Reference layout of one logical line: starting from `line`, segments are
      laid greedily one after another, each ending at its `SegEnd`; the result
      is the start of the segment that holds `f`. A segment the text ends
      inside, unclosed, also holds the end-of-text offset. */
  function SegOf(t: seq<byte>, w: int, line: int, f: int): (r: int)
    requires 0 < w && 0 <= line <= f <= |t|
    ensures line <= r <= f
    ensures f < SegEnd(t, w, r) || !Break(t, w, r, SegEnd(t, w, r))
    ensures f < |t| ==> f < SegEnd(t, w, r)
    decreases f - line
  {
    var n := SegEnd(t, w, line);
    if n <= f && Break(t, w, line, n) then SegOf(t, w, n, f) else line
  }

  /** A segment start found by `SegOf` is found again from itself. */
  lemma {:induction false} SegOfIdem(t: seq<byte>, w: int, line: int, f: int)
    requires 0 < w && 0 <= line <= f <= |t|
    ensures SegOf(t, w, line, SegOf(t, w, line, f)) == SegOf(t, w, line, f)
    decreases f - line
  {
    var n := SegEnd(t, w, line);
    if n <= f && Break(t, w, line, n) {
      SegOfIdem(t, w, n, f);
    }
  }

  /** Once the greedy walk reaches a segment start `s`, it goes on as a walk
      from `s`. */
  lemma {:induction false} SegOfThrough(t: seq<byte>, w: int, line: int, s: int, f: int)
    requires 0 < w && 0 <= line <= s <= f <= |t|
    requires SegOf(t, w, line, s) == s
    ensures SegOf(t, w, line, f) == SegOf(t, w, s, f)
    decreases s - line
  {
    if line < s {
      SegOfThrough(t, w, SegEnd(t, w, line), s, f);
    }
  }

  /** The segment holding `p`, just before a segment start `s`, ends exactly
      at `s`. */
  lemma SegOfBefore(t: seq<byte>, w: int, line: int, p: int, s: int)
    requires 0 < w && 0 <= line <= p && p + 1 == s <= |t|
    requires SegOf(t, w, line, s) == s
    ensures SegEnd(t, w, SegOf(t, w, line, p)) == s
  {
    var u := SegOf(t, w, line, p);
    SegOfIdem(t, w, line, p);
    SegOfThrough(t, w, line, u, s);
  }

  /** The loop of `segstart`: `start` is the latest segment start seen and `c`
      the running column, reset at a newline and when it reaches the width. */
  function SegScan(t: seq<byte>, w: int, scan: int, finish: int, start: int, c: int): (r: int)
    requires 0 < w && 0 <= start <= scan <= finish <= |t|
    requires NoNewline(t, start, scan)
    requires Col(t, start, scan) <= c
    ensures start <= r <= finish
    ensures NoNewline(t, r, finish)
    ensures r < finish ==> Col(t, r, finish) < w
    decreases finish - scan
  {
    if scan < finish then
      var ch := t[scan];
      if ch == NL then
        SegScan(t, w, scan + 1, finish, scan + 1, Advance(0, ch))
      else if w <= c then
        SegScan(t, w, scan + 1, finish, scan, Advance(0, ch))
      else
        AdvanceMonotone(Col(t, start, scan), c, ch);
        SegScan(t, w, scan + 1, finish, start, Advance(c, ch))
    else if c < w then start
    else finish
  }

  /** The `segstart` loop at its end agrees with the greedy layout. */
  lemma SegScanAgreesAtEnd(t: seq<byte>, w: int, finish: int, start: int)
    requires 0 < w && 0 <= start <= finish <= |t|
    requires NoNewline(t, start, finish) && finish <= SegEnd(t, w, start)
    ensures SegScan(t, w, finish, finish, start, Col(t, start, finish)) == SegOf(t, w, start, finish)
  {
    var c, n := Col(t, start, finish), SegEnd(t, w, start);
    if w <= c {
      assert Stop(t, w, start, finish);
    } else if n == finish {
      assert !Break(t, w, start, n);
    }
  }

  /** The `segstart` loop meeting the newline that ends the logical line
      agrees with the greedy layout. */
  lemma SegScanAgreesAtNewline(t: seq<byte>, w: int, scan: int, next: int, start: int)
    requires 0 < w && 0 <= start <= scan && next == scan + 1 <= |t| && t[scan] == NL
    requires NoNewline(t, start, scan) && scan <= SegEnd(t, w, start)
    ensures SegScan(t, w, scan, next, start, Col(t, start, scan)) == SegOf(t, w, start, next)
  {
    var n := SegEnd(t, w, start);
    assert Stop(t, w, start, next);
    if n == scan {
      assert Stop(t, w, scan, next) && !Stop(t, w, scan, scan);
    }
  }

  /** Within one logical line (a newline at most as the last byte scanned), the
      `segstart` loop breaks segments exactly where the greedy layout does. */
  lemma {:induction false} SegScanAgrees(t: seq<byte>, w: int, scan: int, finish: int, start: int)
    requires 0 < w && 0 <= start <= scan <= finish <= |t|
    requires NoNewline(t, start, scan) && scan <= SegEnd(t, w, start)
    ensures NoNewline(t, scan, finish - 1) ==>
      SegScan(t, w, scan, finish, start, Col(t, start, scan)) == SegOf(t, w, start, finish)
    decreases finish - scan
  {
    if !NoNewline(t, scan, finish - 1) {
      return;
    }
    var c := Col(t, start, scan);
    var next := scan + 1;
    if scan == finish {
      SegScanAgreesAtEnd(t, w, finish, start);
    } else if t[scan] == NL {
      SegScanAgreesAtNewline(t, w, scan, next, start);
    } else if w <= c {
      SegScanWraps(t, w, scan, next, finish, start);
      SegScanAgrees(t, w, next, finish, scan);
    } else {
      SegScanContinues(t, w, scan, next, finish, start);
      SegScanAgrees(t, w, next, finish, start);
    }
  }

  /** A step of the `segstart` loop that reaches the width: the scanned byte
      starts a new segment, in the loop and in the greedy layout alike. */
  lemma SegScanWraps(t: seq<byte>, w: int, scan: int, next: int, finish: int, start: int)
    requires 0 < w && 0 <= start <= scan && next == scan + 1 <= finish <= |t|
    requires NoNewline(t, start, scan) && scan <= SegEnd(t, w, start)
    requires t[scan] != NL && w <= Col(t, start, scan)
    ensures SegScan(t, w, scan, finish, start, Col(t, start, scan))
         == SegScan(t, w, next, finish, scan, Col(t, scan, next))
    ensures SegOf(t, w, start, finish) == SegOf(t, w, scan, finish)
    ensures next <= SegEnd(t, w, scan) && NoNewline(t, scan, next)
  {
    assert Stop(t, w, start, scan) && Break(t, w, start, scan);
    assert SegEnd(t, w, start) == scan;
    assert !Stop(t, w, scan, scan);
    assert Col(t, scan, next) == Advance(0, t[scan]);
  }

  /** A step of the `segstart` loop short of the width: the segment goes on. */
  lemma SegScanContinues(t: seq<byte>, w: int, scan: int, next: int, finish: int, start: int)
    requires 0 < w && 0 <= start <= scan && next == scan + 1 <= finish <= |t|
    requires NoNewline(t, start, scan) && scan <= SegEnd(t, w, start)
    requires t[scan] != NL && Col(t, start, scan) < w
    ensures SegScan(t, w, scan, finish, start, Col(t, start, scan))
         == SegScan(t, w, next, finish, start, Col(t, start, next))
    ensures next <= SegEnd(t, w, start) && NoNewline(t, start, next)
  {
    assert !Stop(t, w, start, scan);
  }

  /** `segstart`: the start of the wrapped segment that holds `finish`, scanning
      forward from the logical line start `start`. The result begins a run of
      bytes up to `finish` that holds no newline and fits in `w` columns, and
      within one logical line it is the segment start of the greedy layout. */
  function SegStart(t: seq<byte>, w: int, start: int, finish: int): (r: int)
    requires 0 < w && 0 <= start <= |t| && finish <= |t|
    ensures start <= finish ==> start <= r <= finish
    ensures finish < start ==> r == start
    ensures NoNewline(t, r, finish)
    ensures r < finish ==> Col(t, r, finish) < w
  {
    if finish < start then start else SegScan(t, w, start, finish, start, 0)
  }

  /** Within one logical line (a newline at most as the last byte), `segstart`
      returns the segment start of the greedy layout. */
  lemma SegStartAgrees(t: seq<byte>, w: int, start: int, finish: int)
    requires 0 < w && 0 <= start <= finish <= |t|
    requires NoNewline(t, start, finish - 1)
    ensures SegStart(t, w, start, finish) == SegOf(t, w, start, finish)
  {
    SegScanAgrees(t, w, start, finish, start);
  }

  /** `segnext`: the start of the segment after the one holding `finish`. The
      segment ends at the first place where the text ends, just past a
      newline, or where its bytes fill the width; it always passes `finish`
      short of the end of text. */
  function SegNext(t: seq<byte>, w: int, start: int, finish: int): (r: int)
    requires 0 < w && 0 <= start <= |t| && finish <= |t|
    ensures SegStart(t, w, start, finish) <= r <= |t|
    ensures SegStart(t, w, start, finish) < |t| ==> SegStart(t, w, start, finish) < r
    ensures NoNewline(t, SegStart(t, w, start, finish), r - 1)
    ensures r == |t| || t[r - 1] == NL || w <= Col(t, SegStart(t, w, start, finish), r)
    ensures SegStart(t, w, start, finish) < r ==> Col(t, SegStart(t, w, start, finish), r - 1) < w
    ensures finish < |t| ==> finish < r
    ensures finish == |t| ==> r == |t|
  {
    var ss := SegStart(t, w, start, finish);
    if ss < finish < |t| then
      SegNextPasses(t, w, ss, ss, finish);
      SegEnd(t, w, ss)
    else if ss < finish then
      ColMonotone(t, ss, finish - 1, finish);
      SegNextPasses(t, w, ss, ss, finish - 1);
      SegEnd(t, w, ss)
    else SegEnd(t, w, ss)
  }

  /** `segnext` continues from where `segstart` stops. */
  lemma SegNextAfterStart(t: seq<byte>, w: int, start: int, finish: int)
    requires 0 < w && 0 <= start <= |t| && finish <= |t|
    ensures SegNext(t, w, start, finish) == SegEnd(t, w, SegStart(t, w, start, finish))
  {
  }

  /** A segment that reaches `f` with room to spare does not end before `f`. */
  lemma {:induction false} SegNextPasses(t: seq<byte>, w: int, seg: int, scan: int, f: int)
    requires 0 < w && 0 <= seg <= scan <= f < |t|
    requires NoNewline(t, seg, f)
    requires Col(t, seg, f) < w
    ensures f < SegNextScan(t, w, seg, scan, Col(t, seg, scan))
    decreases f - scan
  {
    ColMonotone(t, seg, scan, f);
    if scan < f {
      assert t[scan] != NL;
      SegNextPasses(t, w, seg, scan + 1, f);
    }
  }

  /** Segments tile a logical line: the start of the segment after the one
      holding `f` is itself found as a segment start by `segstart`. */
  lemma SegNextTiles(t: seq<byte>, w: int, start: int, f: int)
    requires 0 < w && 0 <= start <= f <= |t| && NoNewline(t, start, f)
    requires SegNext(t, w, start, f) < |t|
    ensures SegStart(t, w, start, SegNext(t, w, start, f)) == SegNext(t, w, start, f)
  {
    var s, n := SegStart(t, w, start, f), SegNext(t, w, start, f);
    SegStartAgrees(t, w, start, f);
    SegNextAfterStart(t, w, start, f);
    assert n == SegEnd(t, w, s) && Stop(t, w, s, n);
    assert NoNewline(t, start, n - 1);
    SegStartAgrees(t, w, start, n);
    SegOfIdem(t, w, start, f);
    SegOfThrough(t, w, start, s, n);
    assert SegOf(t, w, s, n) == n;
  }

  /** `upup`: the start of the visual line above the one holding `off`: the
      previous segment of the same logical line, or else the last segment of
      the previous logical line. */
  function UpUp(b: Buffer, off: int, w: int): (r: int)
    requires Valid(b) && 0 <= off <= Len(b) && 0 < w
    ensures 0 <= r <= off
    ensures 0 < off ==> r < off
    ensures NoNewline(Text(b), r, LnStart(b, off) - 1)
  {
    var t := Text(b);
    var curr := LnStart(b, off);
    var seg := SegStart(t, w, curr, off);
    if curr < seg then SegStart(t, w, curr, seg - 1)
    else SegStart(t, w, LnStart(b, curr - 1), curr - 1)
  }

  /** `dndn`: the start of the visual line below the one holding `off`. Short of
      the end of text it lies strictly past `off`, and the bytes from `off` up to
      its last byte hold no newline; at the end of text it stays there. */
  function DnDn(b: Buffer, off: int, w: int): (r: int)
    requires Valid(b) && 0 <= off <= Len(b) && 0 < w
    ensures r <= Len(b)
    ensures off < Len(b) ==> off < r
    ensures off == Len(b) ==> r == Len(b)
    ensures NoNewline(Text(b), off, r - 1)
  {
    SegNext(Text(b), w, LnStart(b, off), off)
  }

  /** A screen line starts at `s`: the greedy layout of its logical line has a
      segment starting there. */
  predicate ScreenStart(t: seq<byte>, w: int, s: int)
    requires 0 < w && 0 <= s <= |t|
  {
    SegOf(t, w, LineStartOf(t, s), s) == s
  }

  /** The start of the screen line holding `off` in the greedy layout. Short
      of the end of text, that screen line runs past `off`. */
  function ScreenLineOf(t: seq<byte>, w: int, off: int): (r: int)
    requires 0 < w && 0 <= off <= |t|
    ensures LineStartOf(t, off) <= r <= off
    ensures NoNewline(t, r, off)
    ensures off < |t| ==> off < SegEnd(t, w, r)
  {
    SegOf(t, w, LineStartOf(t, off), off)
  }

  /** The text starts a screen line. */
  lemma ScreenStartZero(t: seq<byte>, w: int)
    requires 0 < w
    ensures ScreenStart(t, w, 0)
  {
  }

  /** The screen line holding `off` lies on the logical line of `off`, and
      starts at a screen start. */
  lemma ScreenLineOfStarts(t: seq<byte>, w: int, off: int)
    requires 0 < w && 0 <= off <= |t|
    ensures LineStartOf(t, ScreenLineOf(t, w, off)) == LineStartOf(t, off)
    ensures ScreenStart(t, w, ScreenLineOf(t, w, off))
  {
    var l, s := LineStartOf(t, off), ScreenLineOf(t, w, off);
    LineStartSame(t, s, off);
    SegOfIdem(t, w, l, off);
  }

  /** The last offset `e` of the screen line holding `off` still belongs to
      that screen line. */
  lemma LastOfScreenLine(t: seq<byte>, w: int, off: int, e: int)
    requires 0 < w && 0 <= off < |t| && 0 <= e
    requires e + 1 == SegEnd(t, w, ScreenLineOf(t, w, off))
    ensures ScreenLineOf(t, w, e) == ScreenLineOf(t, w, off)
  {
    var l, s := LineStartOf(t, off), ScreenLineOf(t, w, off);
    LineStartSame(t, off, e);
    SegOfIdem(t, w, l, off);
    SegOfThrough(t, w, l, s, e);
  }

  /** The screen line holding `off` ends at a screen start, or at the end of
      text. */
  lemma NextScreenLine(t: seq<byte>, w: int, off: int, d: int)
    requires 0 < w && 0 <= off < |t|
    requires d == SegEnd(t, w, ScreenLineOf(t, w, off)) < |t|
    ensures ScreenStart(t, w, d)
  {
    var l, s := LineStartOf(t, off), ScreenLineOf(t, w, off);
    if t[d - 1] != NL {
      LineStartSame(t, off, d);
      SegOfIdem(t, w, l, off);
      SegOfThrough(t, w, l, s, d);
      assert Break(t, w, s, d);
    }
  }

  /** The screen line holding `p`, just before a screen start `s`, ends
      exactly at `s`. */
  lemma PrevScreenLine(t: seq<byte>, w: int, p: int, s: int)
    requires 0 < w && 0 <= p && p + 1 == s <= |t| && ScreenStart(t, w, s)
    ensures SegEnd(t, w, ScreenLineOf(t, w, p)) == s
  {
    var u, l := ScreenLineOf(t, w, p), LineStartOf(t, p);
    if t[p] == NL {
      assert Stop(t, w, u, s);
    } else {
      LineStartSame(t, p, s);
      SegOfBefore(t, w, l, p, s);
    }
  }

  /** A screen line holds exactly the offsets from its start up to its end:
      each of them has that screen line as its own. */
  lemma ScreenLineOfWithin(t: seq<byte>, w: int, s: int, p: int)
    requires 0 < w && 0 <= s <= p < |t| && ScreenStart(t, w, s) && p < SegEnd(t, w, s)
    ensures ScreenLineOf(t, w, p) == s
  {
    var l := LineStartOf(t, s);
    LineStartSame(t, s, p);
    SegOfThrough(t, w, l, s, p);
  }

  /** The start of the screen line holding `off`, as `lnbegin` computes it. */
  function LineBegin(b: Buffer, w: int, off: int): (r: int)
    requires Valid(b) && 0 <= off <= Len(b) && 0 < w
    ensures LnStart(b, off) <= r <= off
    ensures NoNewline(Text(b), r, off)
  {
    SegStart(Text(b), w, LnStart(b, off), off)
  }

  /** Where line starts are exact, `lnbegin` finds the screen line of the
      greedy layout. */
  lemma LineBeginIsScreenLine(b: Buffer, w: int, off: int)
    requires Valid(b) && LineStartsExact(b) && 0 <= off <= Len(b) && 0 < w
    ensures LineBegin(b, w, off) == ScreenLineOf(Text(b), w, off)
  {
    LnStartMatches(b, off);
    SegStartAgrees(Text(b), w, LineStartOf(Text(b), off), off);
  }

  /** Where line starts are exact, `dndn` goes to the end of the screen line
      holding `off`. */
  lemma DnDnEndsScreenLine(b: Buffer, w: int, off: int)
    requires Valid(b) && LineStartsExact(b) && 0 <= off <= Len(b) && 0 < w
    ensures DnDn(b, off, w) == SegEnd(Text(b), w, ScreenLineOf(Text(b), w, off))
  {
    LineBeginIsScreenLine(b, w, off);
    SegNextAfterStart(Text(b), w, LnStart(b, off), off);
  }

  /** At a screen start, `dndn` gives the end of its segment. */
  lemma DnDnAtScreenStart(b: Buffer, w: int, s: int)
    requires Valid(b) && LineStartsExact(b) && 0 <= s <= Len(b) && 0 < w
    requires ScreenStart(Text(b), w, s)
    ensures DnDn(b, s, w) == SegEnd(Text(b), w, s)
  {
    DnDnEndsScreenLine(b, w, s);
  }

  /** When the screen line holding `off` is not the first of its logical
      line, `upup` finds the segment start of the offset `q` just before it. */
  lemma UpUpInLine(b: Buffer, w: int, off: int, q: int)
    requires Valid(b) && 0 <= off <= Len(b) && 0 < w
    requires LnStart(b, off) <= q && q + 1 == LineBegin(b, w, off)
    ensures UpUp(b, off, w) == SegStart(Text(b), w, LnStart(b, off), q)
  {
  }

  /** When the screen line holding `off` is the first of its logical line,
      `upup` goes to the start of the screen line holding the offset `q` just
      before the line. */
  lemma UpUpAtLineStart(b: Buffer, w: int, off: int, q: int)
    requires Valid(b) && 0 <= off <= Len(b) && 0 < w
    requires 0 <= q && q + 1 == LnStart(b, off) == LineBegin(b, w, off)
    ensures UpUp(b, off, w) == LineBegin(b, w, q)
  {
  }

  /** Within a logical line, `upup` steps back to the screen line holding the
      offset `p` just before the current screen line. */
  lemma UpUpWithinLine(b: Buffer, w: int, off: int, p: int)
    requires Valid(b) && LineStartsExact(b) && 0 <= off <= Len(b) && 0 < w
    requires LineStartOf(Text(b), off) <= p && p + 1 == ScreenLineOf(Text(b), w, off)
    ensures UpUp(b, off, w) == ScreenLineOf(Text(b), w, p)
  {
    var t, l := Text(b), LineStartOf(Text(b), off);
    LnStartMatches(b, off);
    LineBeginIsScreenLine(b, w, off);
    UpUpInLine(b, w, off, p);
    SegStartInLine(t, w, off, p);
  }

  /** The segment start `segstart` finds from the logical line start for an
      offset `p` before the screen line holding `off` is that of `p`. */
  lemma SegStartInLine(t: seq<byte>, w: int, off: int, p: int)
    requires 0 < w && 0 <= off <= |t|
    requires LineStartOf(t, off) <= p && p + 1 == ScreenLineOf(t, w, off)
    ensures SegStart(t, w, LineStartOf(t, off), p) == ScreenLineOf(t, w, p)
  {
    var l := LineStartOf(t, off);
    LineStartSame(t, p, off);
    SegStartAgrees(t, w, l, p);
  }

  /** From the first screen line of a logical line, `upup` steps back to the
      screen line holding the newline `p` that ends the logical line before. */
  lemma UpUpAcrossLine(b: Buffer, w: int, off: int, p: int)
    requires Valid(b) && LineStartsExact(b) && 0 <= off <= Len(b) && 0 < w
    requires 0 <= p && p + 1 == LineStartOf(Text(b), off) == ScreenLineOf(Text(b), w, off)
    ensures UpUp(b, off, w) == ScreenLineOf(Text(b), w, p)
  {
    LnStartMatches(b, off);
    LineBeginIsScreenLine(b, w, off);
    UpUpAtLineStart(b, w, off, p);
    LineBeginIsScreenLine(b, w, p);
  }

  /** On the first screen line of the text, `upup` stays at 0. */
  lemma UpUpFirstLine(b: Buffer, w: int, off: int)
    requires Valid(b) && LineStartsExact(b) && 0 <= off <= Len(b) && 0 < w
    requires ScreenLineOf(Text(b), w, off) == 0
    ensures UpUp(b, off, w) == 0
  {
    LnStartMatches(b, off);
    LineBeginIsScreenLine(b, w, off);
  }

  /** Where line starts are exact, `upup` goes to the start of the screen line
      holding the offset `p` just before the current screen line. */
  lemma UpUpStartsPrevious(b: Buffer, w: int, off: int, p: int)
    requires Valid(b) && LineStartsExact(b) && 0 <= off <= Len(b) && 0 < w
    requires 0 <= p && p + 1 == ScreenLineOf(Text(b), w, off)
    ensures UpUp(b, off, w) == ScreenLineOf(Text(b), w, p)
  {
    if LineStartOf(Text(b), off) <= p {
      UpUpWithinLine(b, w, off, p);
    } else {
      UpUpAcrossLine(b, w, off, p);
    }
  }

  /** Conversely, an offset inside the screen line starting at `s` has `s`
      as the start of its screen line. */
  lemma LineBeginWithin(b: Buffer, w: int, s: int, p: int)
    requires Valid(b) && LineStartsExact(b) && 0 < w && 0 <= s <= p < Len(b)
    requires ScreenStart(Text(b), w, s) && p < DnDn(b, s, w)
    ensures LineBegin(b, w, p) == s
  {
    DnDnAtScreenStart(b, w, s);
    ScreenLineOfWithin(Text(b), w, s, p);
    LineBeginIsScreenLine(b, w, p);
  }

  /** `lnbegin` lands on a screen start. */
  lemma LineBeginStarts(b: Buffer, w: int, off: int)
    requires Valid(b) && LineStartsExact(b) && 0 <= off <= Len(b) && 0 < w
    ensures ScreenStart(Text(b), w, LineBegin(b, w, off))
  {
    LineBeginIsScreenLine(b, w, off);
    ScreenLineOfStarts(Text(b), w, off);
  }

  /** `lnbegin` stays on the logical line of `off`. */
  lemma LineBeginSameLine(b: Buffer, w: int, off: int)
    requires Valid(b) && LineStartsExact(b) && 0 <= off <= Len(b) && 0 < w
    ensures LnStart(b, LineBegin(b, w, off)) == LnStart(b, off)
  {
    var t, s := Text(b), LineBegin(b, w, off);
    LnStartMatches(b, off);
    LnStartMatches(b, s);
    LineStartSame(t, s, off);
  }

  /** At a screen start, `lnbegin` stays put. */
  lemma ScreenStartBegins(b: Buffer, w: int, s: int)
    requires Valid(b) && LineStartsExact(b) && 0 <= s <= Len(b) && 0 < w
    requires ScreenStart(Text(b), w, s)
    ensures LineBegin(b, w, s) == s
  {
    LineBeginIsScreenLine(b, w, s);
  }

  /** `dndn` depends only on the start of the screen line. */
  lemma LineBeginDown(b: Buffer, w: int, off: int)
    requires Valid(b) && LineStartsExact(b) && 0 <= off <= Len(b) && 0 < w
    ensures DnDn(b, LineBegin(b, w, off), w) == DnDn(b, off, w)
  {
    LineBeginStarts(b, w, off);
    DnDnAtScreenStart(b, w, LineBegin(b, w, off));
    DnDnEndsScreenLine(b, w, off);
    LineBeginIsScreenLine(b, w, off);
  }

  /** `lnbegin` stays at or before `off`, and short of the end of text the
      next screen line starts past `off`. */
  lemma LineBeginHolds(b: Buffer, w: int, off: int)
    requires Valid(b) && LineStartsExact(b) && 0 <= off < Len(b) && 0 < w
    ensures LineBegin(b, w, off) <= off < DnDn(b, LineBegin(b, w, off), w)
  {
    LineBeginDown(b, w, off);
  }

  /** `upup` from a screen line starting at `s = p + 1`. */
  lemma UpUpFromLater(b: Buffer, w: int, off: int, p: int, s: int)
    requires Valid(b) && LineStartsExact(b) && 0 <= off <= Len(b) && 0 < w
    requires 0 <= p && p + 1 == s == LineBegin(b, w, off)
    ensures UpUp(b, s, w) == UpUp(b, off, w)
  {
    var t := Text(b);
    LineBeginIsScreenLine(b, w, off);
    ScreenLineOfStarts(t, w, off);
    UpUpStartsPrevious(b, w, off, p);
    UpUpStartsPrevious(b, w, s, p);
  }

  /** `upup` from the first screen line. */
  lemma UpUpFromFirst(b: Buffer, w: int, off: int)
    requires Valid(b) && LineStartsExact(b) && 0 <= off <= Len(b) && 0 < w
    requires LineBegin(b, w, off) == 0
    ensures UpUp(b, 0, w) == UpUp(b, off, w)
  {
    LineBeginIsScreenLine(b, w, off);
    UpUpFirstLine(b, w, off);
    UpUpFirstLine(b, w, 0);
  }

  /** `upup` depends only on the start of the screen line. */
  lemma LineBeginUp(b: Buffer, w: int, off: int)
    requires Valid(b) && LineStartsExact(b) && 0 <= off <= Len(b) && 0 < w
    ensures UpUp(b, LineBegin(b, w, off), w) == UpUp(b, off, w)
  {
    var s := LineBegin(b, w, off);
    if 0 < s {
      var p := s - 1;
      UpUpFromLater(b, w, off, p, s);
    } else {
      UpUpFromFirst(b, w, off);
    }
  }

  /** `dndn` lands on a screen start, short of the end of text. */
  lemma DnDnScreenStart(b: Buffer, w: int, off: int)
    requires Valid(b) && LineStartsExact(b) && 0 <= off <= Len(b) && 0 < w
    requires DnDn(b, off, w) < Len(b)
    ensures ScreenStart(Text(b), w, DnDn(b, off, w))
  {
    var d := DnDn(b, off, w);
    DnDnEndsScreenLine(b, w, off);
    NextScreenLine(Text(b), w, off, d);
  }

  /** `upup` from a screen line starting at `p + 1` lands on a screen start. */
  lemma UpUpScreenStartAfter(b: Buffer, w: int, off: int, p: int)
    requires Valid(b) && LineStartsExact(b) && 0 <= off <= Len(b) && 0 < w
    requires 0 <= p && p + 1 == ScreenLineOf(Text(b), w, off)
    ensures ScreenStart(Text(b), w, UpUp(b, off, w))
  {
    UpUpStartsPrevious(b, w, off, p);
    ScreenLineOfStarts(Text(b), w, p);
  }

  /** `upup` from the first screen line lands on a screen start. */
  lemma UpUpScreenStartFirst(b: Buffer, w: int, off: int)
    requires Valid(b) && LineStartsExact(b) && 0 <= off <= Len(b) && 0 < w
    requires ScreenLineOf(Text(b), w, off) == 0
    ensures ScreenStart(Text(b), w, UpUp(b, off, w))
  {
    UpUpFirstLine(b, w, off);
    ScreenStartZero(Text(b), w);
  }

  /** `upup` lands on a screen start. */
  lemma UpUpScreenStart(b: Buffer, w: int, off: int)
    requires Valid(b) && LineStartsExact(b) && 0 <= off <= Len(b) && 0 < w
    ensures ScreenStart(Text(b), w, UpUp(b, off, w))
  {
    var s := ScreenLineOf(Text(b), w, off);
    if 0 < s {
      var p := s - 1;
      UpUpScreenStartAfter(b, w, off, p);
    } else {
      UpUpScreenStartFirst(b, w, off);
    }
  }

  /** From the screen start of the screen line holding `p`, `dndn` reaches the
      screen start `s = p + 1`. */
  lemma DnDnFromPrevious(b: Buffer, w: int, p: int, s: int)
    requires Valid(b) && LineStartsExact(b) && 0 <= p && p + 1 == s <= Len(b) && 0 < w
    requires ScreenStart(Text(b), w, s)
    ensures DnDn(b, ScreenLineOf(Text(b), w, p), w) == s
  {
    var t := Text(b);
    var u := ScreenLineOf(t, w, p);
    ScreenLineOfStarts(t, w, p);
    DnDnAtScreenStart(b, w, u);
    PrevScreenLine(t, w, p, s);
  }

  /** Going up a screen line and then down comes back to the same screen start. */
  lemma DnDnUpUp(b: Buffer, w: int, s: int)
    requires Valid(b) && LineStartsExact(b) && 0 < s <= Len(b) && 0 < w
    requires ScreenStart(Text(b), w, s)
    ensures DnDn(b, UpUp(b, s, w), w) == s
  {
    var p := s - 1;
    UpUpStartsPrevious(b, w, s, p);
    DnDnFromPrevious(b, w, p, s);
  }

  /** `upup` from the screen start `d = e + 1` that ends the screen line
      starting at `s`. */
  lemma UpUpFromNext(b: Buffer, w: int, s: int, e: int, d: int)
    requires Valid(b) && LineStartsExact(b) && 0 <= s < Len(b) && 0 < w
    requires ScreenStart(Text(b), w, s)
    requires 0 <= e && e + 1 == d == SegEnd(Text(b), w, s) < Len(b)
    requires ScreenStart(Text(b), w, d)
    ensures UpUp(b, d, w) == s
  {
    LastOfScreenLine(Text(b), w, s, e);
    UpUpStartsPrevious(b, w, d, e);
  }

  /** Going down a screen line and then up comes back to the same screen start,
      short of the end of text. */
  lemma UpUpDnDn(b: Buffer, w: int, s: int)
    requires Valid(b) && LineStartsExact(b) && 0 <= s <= Len(b) && 0 < w
    requires ScreenStart(Text(b), w, s) && DnDn(b, s, w) < Len(b)
    ensures UpUp(b, DnDn(b, s, w), w) == s
  {
    var d := DnDn(b, s, w);
    var e := d - 1;
    DnDnAtScreenStart(b, w, s);
    DnDnScreenStart(b, w, s);
    UpUpFromNext(b, w, s, e, d);
  }

  /** The offset `e` just before `dndn` is the last one of the screen line
      holding `off`: it shares that line's start. */
  lemma LastOfLine(b: Buffer, w: int, off: int, e: int)
    requires Valid(b) && LineStartsExact(b) && 0 <= off < Len(b) && 0 < w
    requires 0 <= e && e + 1 == DnDn(b, off, w)
    ensures LineBegin(b, w, e) == LineBegin(b, w, off)
  {
    DnDnEndsScreenLine(b, w, off);
    LastOfScreenLine(Text(b), w, off, e);
    LineBeginIsScreenLine(b, w, off);
    LineBeginIsScreenLine(b, w, e);
  }

  /** The loop of `lncolumn`; `row` is where the row started. */
  function ColumnScan(t: seq<byte>, ghost row: int, scan: int, c: int, column: int): (r: int)
    requires 0 <= row <= scan <= |t|
    requires c == Col(t, row, scan)
    requires NoNewline(t, row, scan)
    requires row < scan ==> Col(t, row, scan - 1) < column
    ensures scan <= r <= |t|
    ensures NoNewline(t, row, r)
    ensures r == |t| || t[r] == NL || column <= Col(t, row, r)
    ensures row < r ==> Col(t, row, r - 1) < column
    decreases |t| - scan
  {
    if scan < |t| && t[scan] != NL && c < column then
      ColumnScan(t, row, scan + 1, Advance(c, t[scan]), column)
    else scan
  }

  /** `lncolumn`: the offset reached by walking right from `offset` until the
      running column reaches `column`, a newline, or the end of text. It is the
      least offset at which one of those three holds. */
  function LnColumn(t: seq<byte>, offset: int, column: int): (r: int)
    requires 0 <= offset <= |t|
    ensures offset <= r <= |t|
    ensures NoNewline(t, offset, r)
    ensures column <= 0 ==> r == offset
    ensures r == |t| || t[r] == NL || column <= Col(t, offset, r)
    ensures offset < r ==> Col(t, offset, r - 1) < column
  {
    ColumnScan(t, offset, offset, 0, column)
  }

  /** Walking to a column no wider than the screen stays within the segment
      that starts the walk. */
  lemma LnColumnWithinSegment(t: seq<byte>, w: int, s: int, column: int)
    requires 0 < w && 0 <= s <= |t| && column <= w
    ensures LnColumn(t, s, column) <= SegEnd(t, w, s)
  {
    var r, n := LnColumn(t, s, column), SegEnd(t, w, s);
    if n < r {
      ColMonotone(t, s, n, r - 1);
    }
  }

  /** "ab\tcd\nefgh" at width 10: the tab takes columns 2 to 7, so "ab\tcd"
      fills the row exactly and `segnext` stops there, before the newline. The
      newline then forms a segment of its own (a blank row), and "efgh" follows. */
  lemma WidthFilledLineScenario()
    ensures var t := [0x61, 0x62, TAB, 0x63, 0x64, NL, 0x65, 0x66, 0x67, 0x68];
      && SegNext(t, 10, 0, 0) == 5
      && SegStart(t, 10, 0, 5) == 5
      && SegNext(t, 10, 0, 5) == 6
      && SegNext(t, 10, 6, 6) == 10
  {
    var t: seq<byte> := [0x61, 0x62, TAB, 0x63, 0x64, NL, 0x65, 0x66, 0x67, 0x68];
    assert SegNextScan(t, 10, 0, 5, 10) == 5;
    assert SegNextScan(t, 10, 0, 4, 9) == 5;
    assert SegNextScan(t, 10, 0, 3, 8) == 5;
    assert SegNextScan(t, 10, 0, 2, 2) == 5;
    assert SegNextScan(t, 10, 0, 1, 1) == 5;
    assert SegScan(t, 10, 5, 5, 0, 10) == 5;
    assert SegScan(t, 10, 4, 5, 0, 9) == 5;
    assert SegScan(t, 10, 3, 5, 0, 8) == 5;
    assert SegScan(t, 10, 2, 5, 0, 2) == 5;
    assert SegScan(t, 10, 1, 5, 0, 1) == 5;
    assert SegNextScan(t, 10, 6, 9, 3) == 10;
    assert SegNextScan(t, 10, 6, 8, 2) == 10;
    assert SegNextScan(t, 10, 6, 7, 1) == 10;
  }

  /** "\nabcdefg" with the gap at the end. */
  const InexactBuffer: Buffer := Buffer([NL, 0x61, 0x62, 0x63, 0x64, 0x65, 0x66, 0x67], 8, 8)

  /** "\nabcdefg" with the gap at the end, width 3: `lnstart` does not see the
      newline at offset 0, so the screen lines `upup` and `dndn` walk are laid
      from offset 0 and not from offset 1. From the screen start 7, `upup`
      goes to 3, yet `dndn` from 3 stops at 6. */
  lemma InexactLineStartScenario()
    ensures !LineStartsExact(InexactBuffer)
    ensures ScreenStart(Text(InexactBuffer), 3, 7)
    ensures UpUp(InexactBuffer, 7, 3) == 3
    ensures DnDn(InexactBuffer, 3, 3) == 6
  {
    InexactScreenStart();
    InexactUpUp();
    InexactDnDn();
  }

  /** Laid from offset 1, the segments of "abcdefg" at width 3 start at 1, 4 and 7. */
  lemma InexactScreenStart()
    ensures ScreenStart(Text(InexactBuffer), 3, 7)
  {
    var t := Text(InexactBuffer);
    assert LineStartOf(t, 7) == 1;
    assert Col(t, 1, 2) == 1 && Col(t, 1, 3) == 2 && Col(t, 1, 4) == 3;
    assert SegEnd(t, 3, 1) == 4;
    assert Col(t, 4, 5) == 1 && Col(t, 4, 6) == 2 && Col(t, 4, 7) == 3;
    assert SegEnd(t, 3, 4) == 7;
  }

  /** Laid from offset 0, where the newline takes a column, the segment
      holding 7 starts at 6, and the one holding 5 at 3. */
  lemma InexactUpUp()
    ensures UpUp(InexactBuffer, 7, 3) == 3
  {
    var t := Text(InexactBuffer);
    assert LnStart(InexactBuffer, 7) == 0;
    assert SegStart(t, 3, 0, 7) == 6;
    assert SegStart(t, 3, 0, 5) == 3;
  }

  /** From 3, which `segstart` maps to itself, `dndn` stops after "cde". */
  lemma InexactDnDn()
    ensures DnDn(InexactBuffer, 3, 3) == 6
  {
    var t := Text(InexactBuffer);
    assert LnStart(InexactBuffer, 3) == 0;
    assert SegScan(t, 3, 3, 3, 1, 3) == 3;
    assert SegScan(t, 3, 2, 3, 1, 2) == 3;
    assert SegScan(t, 3, 1, 3, 1, 1) == 3;
    assert t[0] == NL && Advance(0, t[0]) == 1;
    assert SegScan(t, 3, 0, 3, 0, 0) == 3;
    assert SegStart(t, 3, 0, 3) == 3;
    assert Col(t, 3, 4) == 1 && Col(t, 3, 5) == 2 && Col(t, 3, 6) == 3;
    assert SegNextScan(t, 3, 3, 6, 3) == 6 && SegNextScan(t, 3, 3, 5, 2) == 6;
    assert SegNextScan(t, 3, 3, 4, 1) == 6 && SegEnd(t, 3, 3) == 6;
  }
}

=== FILE: search.dfy ===
/** Incremental forward search of zep: the substring scan `search_forward` and
    the key handling of `search()` as a transition function over key codes. */
module Search {
  import opened Bytes
  import opened GapBuffer
  import Editing

  /** Capacity of `searchtext`, including its terminating NUL (STRBUF_M). */
  const STRBUF_M: int := 64

  const ESC: int := 0x1b
  const CTRL_G: int := 0x07
  const CTRL_S: int := 0x13
  const LF: int := 0x0a
  const DEL: int := 0x7f
  const BS: int := 0x08

  /** `s` lies entirely inside `t` starting at offset `p`. */
  predicate Occurs(t: seq<byte>, p: int, s: seq<byte>)
  {
    0 <= p && p + |s| <= |t| && t[p..p + |s|] == s
  }

  /** `r` is the end of the first occurrence of `s` in `t` at or after `start`. */
  predicate FirstMatchEnd(t: seq<byte>, start: int, s: seq<byte>, r: int)
  {
    && start <= r - |s|
    && Occurs(t, r - |s|, s)
    && forall q :: start <= q < r - |s| ==> !Occurs(t, q, s)
  }

  /** The inner loop of `search_forward`: how many bytes of `s`, from index `i`
      on, match `t` from offset `p + i` before a mismatch or the end of text. */
  function MatchLen(t: seq<byte>, p: int, s: seq<byte>, i: int): (r: int)
    requires 0 <= p && 0 <= i <= |s| && p + i <= |t| && t[p..p + i] == s[..i]
    ensures i <= r <= |s|
    ensures r == |s| <==> Occurs(t, p, s)
    decreases |s| - i
  {
    if i < |s| && p + i < |t| && s[i] == t[p + i] then
      assert t[p..p + i + 1] == t[p..p + i] + [t[p + i]];
      assert s[..i + 1] == s[..i] + [s[i]];
      MatchLen(t, p, s, i + 1)
    else
      assert i == |s| ==> s[..i] == s;
      assert i < |s| && p + |s| <= |t| ==> t[p..p + |s|][i] == t[p + i];
      i
  }

  /** The outer loop of `search_forward` for a non-empty pattern. */
  function SearchFrom(t: seq<byte>, p: int, s: seq<byte>): (r: int)
    requires 0 <= p && 0 < |s|
    ensures r == -1 <==> forall q :: p <= q ==> !Occurs(t, q, s)
    ensures r != -1 ==> FirstMatchEnd(t, p, s, r)
    decreases |t| - p
  {
    if |t| <= p then -1
    else if MatchLen(t, p, s, 0) == |s| then p + |s|
    else SearchFrom(t, p + 1, s)
  }

  /** `search_forward`: an empty pattern matches at `start` at once; otherwise
      the result is the end of the first occurrence at or after `start`, or -1
      when there is none. */
  function SearchForward(t: seq<byte>, start: int, s: seq<byte>): (r: int)
    requires 0 <= start <= |t|
    ensures |s| == 0 ==> r == start
    ensures r == -1 <==> forall q :: start <= q ==> !Occurs(t, q, s)
    ensures r != -1 ==> FirstMatchEnd(t, start, s, r)
    ensures r != -1 ==> start + |s| <= r <= |t|
  {
    if |s| == 0 then
      assert Occurs(t, start, s);
      start
    else SearchFrom(t, start, s)
  }

  /** In "abcabc", "ab" searched from offset 1 ends at 5 and from offset 4 is
      not found; an empty pattern is found where the search starts. */
  lemma SearchScenario()
    ensures var t: seq<byte> := [0x61, 0x62, 0x63, 0x61, 0x62, 0x63];
      && SearchForward(t, 1, [0x61, 0x62]) == 5
      && SearchForward(t, 4, [0x61, 0x62]) == -1
      && SearchForward(t, 2, []) == 2
  {
  }

  /** The state of one `search()` session: the pattern typed so far, the live
      point, and the point saved on entry. */
  datatype Session = Session(pattern: seq<byte>, point: int, origin: int)

  /** Outcome of a key: still searching, or left with the given point. */
  datatype Step = Searching(session: Session) | Finished(point: int)

  /** The pattern fits `searchtext` and both offsets lie in the text. */
  predicate Wellformed(t: seq<byte>, s: Session)
  {
    |s.pattern| <= STRBUF_M - 1 && 0 <= s.point <= |t| && 0 <= s.origin <= |t|
  }

  /** `isprint` in the C locale. */
  predicate IsPrint(key: int)
  {
    0x20 <= key <= 0x7e
  }

  /** Entering `search()`: empty pattern, the point saved. */
  function Begin(point: int): (s: Session)
    ensures s.pattern == [] && s.point == point && s.origin == point
  {
    Session([], point, point)
  }

  /** One key of the `search()` loop. */
  function Key(t: seq<byte>, s: Session, key: int): (r: Step)
    requires 0 <= s.point <= |t|
    ensures key == ESC ==> r == Finished(s.point)
    ensures key == CTRL_G ==> r == Finished(s.origin)
    ensures key == CTRL_S || key == LF ==>
      && r.Searching?
      && r.session.pattern == s.pattern && r.session.origin == s.origin
      && (FirstMatchEnd(t, s.point, s.pattern, r.session.point)
          || (r.session.point == 0 && forall q :: s.point <= q ==> !Occurs(t, q, s.pattern)))
    ensures (key == DEL || key == BS) && |s.pattern| == 0 ==> r == Searching(s)
    ensures (key == DEL || key == BS) && 0 < |s.pattern| ==>
      r == Searching(s.(pattern := s.pattern[..|s.pattern| - 1]))
    ensures IsPrint(key) && |s.pattern| < STRBUF_M - 1 ==>
      r == Searching(s.(pattern := s.pattern + [key as byte]))
    ensures IsPrint(key) && STRBUF_M - 1 <= |s.pattern| ==> r == Searching(s)
    ensures !IsPrint(key) && key !in {ESC, CTRL_G, CTRL_S, LF, DEL, BS} ==> r == Searching(s)
    ensures Wellformed(t, s) && r.Searching? ==> Wellformed(t, r.session)
    ensures r.Finished? && Wellformed(t, s) ==> 0 <= r.point <= |t|
  {
    if key == ESC then Finished(s.point)
    else if key == CTRL_G then Finished(s.origin)
    else if key == CTRL_S || key == LF then
      var found := SearchForward(t, s.point, s.pattern);
      Searching(s.(point := if found != -1 then found else 0))
    else if key == DEL || key == BS then
      if |s.pattern| == 0 then Searching(s)
      else Searching(s.(pattern := s.pattern[..|s.pattern| - 1]))
    else if !IsPrint(key) then Searching(s)
    else if |s.pattern| < STRBUF_M - 1 then Searching(s.(pattern := s.pattern + [key as byte]))
    else Searching(s)
  }

  /** Feeds keys to the session until it finishes or the keys run out. The
      pattern stays within `searchtext`, the point within the text, and the
      saved point never changes. */
  function RunSearch(t: seq<byte>, s: Session, keys: seq<int>): (r: Step)
    requires Wellformed(t, s)
    ensures r.Searching? ==> Wellformed(t, r.session) && r.session.origin == s.origin
    ensures r.Finished? ==> 0 <= r.point <= |t|
    decreases |keys|
  {
    if |keys| == 0 then Searching(s)
    else
      match Key(t, s, keys[0])
      case Finished(p) => Finished(p)
      case Searching(s') => RunSearch(t, s', keys[1..])
  }

  /** ctrl-g, after any keys that do not end the session, returns to the point
      saved on entry. */
  lemma {:induction false} AbortRestoresOrigin(t: seq<byte>, s: Session, keys: seq<int>)
    requires Wellformed(t, s)
    requires forall i :: 0 <= i < |keys| ==> keys[i] != ESC && keys[i] != CTRL_G
    ensures RunSearch(t, s, keys + [CTRL_G]) == Finished(s.origin)
    decreases |keys|
  {
    if |keys| == 0 {
      assert RunSearch(t, s, [CTRL_G]) == Finished(s.origin);
    } else {
      var k := Key(t, s, keys[0]);
      assert (keys + [CTRL_G])[1..] == keys[1..] + [CTRL_G];
      AbortRestoresOrigin(t, k.session, keys[1..]);
    }
  }

  /** esc, after any keys that do not end the session, keeps the point the
      session has reached. */
  lemma {:induction false} EscapeKeepsPoint(t: seq<byte>, s: Session, keys: seq<int>)
    requires Wellformed(t, s)
    requires forall i :: 0 <= i < |keys| ==> keys[i] != ESC && keys[i] != CTRL_G
    ensures RunSearch(t, s, keys).Searching?
    ensures RunSearch(t, s, keys + [ESC]) == Finished(RunSearch(t, s, keys).session.point)
    decreases |keys|
  {
    if |keys| == 0 {
      assert RunSearch(t, s, [ESC]) == Finished(s.point);
    } else {
      var k := Key(t, s, keys[0]);
      assert (keys + [ESC])[1..] == keys[1..] + [ESC];
      EscapeKeepsPoint(t, k.session, keys[1..]);
    }
  }

  /** The keys end with ctrl-g and nothing before it ends the session. */
  predicate AbortsAtEnd(keys: seq<int>)
  {
    && 0 < |keys|
    && keys[|keys| - 1] == CTRL_G
    && forall i :: 0 <= i < |keys| - 1 ==> keys[i] != ESC && keys[i] != CTRL_G
  }

  /** `search()` run on the editor with the given keys: only the point changes,
      to where the session has left it (or would leave it, were it cut off
      before its final key). */
  function SearchCommand(e: Editing.Editor, keys: seq<int>): (e': Editing.Editor)
    requires Editing.Inv(e)
    ensures Editing.Inv(e')
    ensures e'.(point := e.point) == e
    ensures AbortsAtEnd(keys) ==> e'.point == e.point
  {
    var t := Text(e.buf);
    var r := RunSearch(t, Begin(e.point), keys);
    var point := if r.Finished? then r.point else r.session.point;
    assert AbortsAtEnd(keys) ==> point == e.point by {
      if AbortsAtEnd(keys) {
        assert keys == keys[..|keys| - 1] + [CTRL_G];
        AbortRestoresOrigin(t, Begin(e.point), keys[..|keys| - 1]);
      }
    }
    e.(point := point)
  }
}
